=== FILE: README.md ===
# Meshling core, modelled in Dafny

Meshling is a terminal client for Meshtastic mesh radios. This project models
its core in Dafny and proves properties of the model:

- the asynchronous **event bus** (`meshling/core/event_bus.py`): subscriber
  lists per event type, a FIFO queue and a consumer that hands each event to
  the subscribers of its type;
- the **transports** (`meshling/interfaces/base_interface.py`,
  `tcp_interface.py`, `serial_interface.py`): a connection status that
  reports every change to a callback, the packet callback, and connecting,
  disconnecting, sending and node queries against the meshtastic driver;
- the **auto detector** (`meshling/interfaces/auto_detector.py`): filtering
  serial ports, scanning a /24 network on port 4403, and choosing the first
  candidate that connects, serial before TCP;
- the **connection manager** (`meshling/core/connection_manager.py`): it owns
  the active transport, emits connection events and decides when to start a
  reconnection;
- the **tab bookkeeping** (`meshling/ui/widgets/tabs/base_tab.py`,
  `tab_container.py`): tracked subscriptions, active and updated flags, the
  tab bar and cyclic keyboard navigation.

Files and modules:

| file | module | contents |
|---|---|---|
| `values.dfy` | `Values` | `Option`, dynamic Python values, callback identities, task states, the string operations the core uses |
| `event_bus.dfy` | `Events` | event types, the subscriber table, the dispatch specification, class `EventBus` |
| `transport.dfy` | `Transports` | status notifications, packet/device/node dictionaries, class `Transport` |
| `auto_detector.dfy` | `AutoDetection` | the candidate tests, both scans, the first-success search |
| `connection_manager.dfy` | `Connections` | event payloads, class `ConnectionManager` |
| `tabs.dfy` | `Tabs` | classes `Tab`, `TabBar`, `TabContainer`, cyclic navigation |

How the outside world appears in the model:

- The meshtastic driver is an oracle. Opening it yields an `OpenOutcome`:
  an instance, nothing, or an exception. Closing it and sending through it
  are parameters saying whether the call raises. Every driver call is
  recorded in `Transport.driverCalls`.
- The serial port listing is `Option<seq<PortInfo>>`, where `None` means
  the listing raised. The platform name is a string. The TCP probe is a
  function from host name to `ProbeResult`.
- Callbacks are identities (`Callback`), each with a flag saying whether it
  raises. A call is recorded rather than executed:
  - `EventBus.delivered` holds the subscribers the bus called;
  - `Transport.notified` holds the calls of the status callback;
  - `Transport.forwarded` holds the calls of the packet callback.
- Asyncio tasks are `TaskState`s. A sleep or timeout is a parameter, such as
  the number of monitor wake-ups.
- Driver objects are read only through `getattr` with a default. They are
  `Value.Obj`. A dictionary (`Value.Dict`) has no attributes, so every
  default applies to it.

Where the code and its written description disagree, the model follows the
code:

- `EventBus.stop` leaves pending events in the queue. It does not discard
  them.
- The reconnection task never reaches its retry branch, because the connect
  methods catch every exception themselves.

One part departs from the code on purpose: the serial transport. Its
`connect` as written can never open a port (see "## Findings"). The serial
transport itself is modelled both as written and corrected. The connection
manager and the auto detector are modelled over the corrected serial
`connect` and `disconnect`. "## Left out" names each member this affects and
says what the code as written does instead.

## Model

| member | source | states |
|---|---|---|
| `Values.RemoveFirst` | meshling/core/event_bus.py:124-129 | `list.remove` guarded by a membership test: a list without the element is left unchanged |
| `Values.RemoveFirstSplits` | meshling/core/event_bus.py:126 | removing a present element drops exactly the one at its first index and keeps everything before and after it |
| `Values.RemoveFirstMultiset` | meshling/core/event_bus.py:126 | removing a present callback takes exactly one copy out |
| `Values.ContainsOccurs` | meshling/interfaces/auto_detector.py:50-51 | the substring test used for keywords and path patterns holds exactly when the pattern occurs at some position |
| `Values.Lower` | meshling/interfaces/auto_detector.py:49 | lower-casing keeps the length and lowers each character |
| `Values.DecimalStringInjective` | meshling/interfaces/auto_detector.py:93 | distinct host suffixes render as distinct decimal strings |
| `Values.IntStringInjective` | meshling/core/connection_manager.py:141 | distinct port numbers render as distinct strings, negative ones with a leading minus |
| `Connections.TcpFailureNamesPort` | meshling/core/connection_manager.py:139-142 | two CONNECTION_FAILED payloads of `connect_tcp` for one host are equal only when they name the same port |
| `Connections.HostPortNamesPort` | meshling/core/connection_manager.py:141 | after any common leading text, `host:port` determines the port |
| `Events.NewEventRoundTrip` | meshling/core/event_bus.py:61-63 | rebuilding an event from its own type and payload gives the same event, and a missing payload is indistinguishable from `{}` |
| `Events.SubscribeAppends` | meshling/core/event_bus.py:111-114 | subscribing appends the callback at the end of its type's list, keeps duplicates, and leaves other types alone |
| `Events.UnsubscribeRemovesFirst` | meshling/core/event_bus.py:124-129 | unsubscribing removes the first occurrence of the callback from its type's list, is a no-op for an absent callback, and leaves other types alone |
| `Events.Deliveries` | meshling/core/event_bus.py:160-174 | handling an event calls each subscriber of its type once, in list order |
| `Events.DispatchAllAppend` | meshling/core/event_bus.py:144-148 | dispatching two queues one after the other delivers the concatenation |
| `Events.NoSubscribersNoDelivery` | meshling/core/event_bus.py:160-164 | an event of a type without subscribers reaches nobody |
| `Events.ReceivedByDeliveries` | meshling/core/event_bus.py:167-172 | a callback subscribed once to the event's type receives the event exactly once, and otherwise not at all |
| `Events.DeliveredInQueueOrder` | meshling/core/event_bus.py:142-152 | a callback subscribed at most once per type receives exactly the queued events of its types, in queue order |
| `Events.UnsubscribeEachRemoves` | meshling/core/event_bus.py:117-129 | unsubscribing a list of subscribed pairs removes exactly those callbacks from each type, counted with multiplicity |
| `Events.EventBus.constructor` | meshling/core/event_bus.py:73-77 | a new bus is stopped, with no subscribers, an empty queue and no consumer task |
| `Events.EventBus.Start` | meshling/core/event_bus.py:79-86 | after start the bus is running with a running consumer; starting a running bus changes nothing |
| `Events.EventBus.Stop` | meshling/core/event_bus.py:88-102 | after stop the bus is not running; the consumer is cancelled only if the bus was running; the queue is kept |
| `Events.EventBus.Subscribe` | meshling/core/event_bus.py:104-115 | the new table is the old one with the callback appended to its type's list |
| `Events.EventBus.Unsubscribe` | meshling/core/event_bus.py:117-129 | the new table is the old one with the first occurrence removed; a missing callback or type changes nothing |
| `Events.EventBus.Emit` | meshling/core/event_bus.py:131-140 | exactly one event, with the given type and data, is appended to the tail of the queue |
| `Events.EventBus.HandleEvent` | meshling/core/event_bus.py:154-174 | the subscribers of the event's type are called in list order, including after a callback raises |
| `Events.EventBus.ProcessEvents` | meshling/core/event_bus.py:142-152 | a running bus empties its queue and delivers the events in FIFO order, each to its subscribers; a stopped bus consumes nothing |
| `Transports.StatusValueInjective` | meshling/interfaces/base_interface.py:12-19 | the five statuses have distinct string values |
| `Transports.NotifyOnChangeOnly` | meshling/interfaces/base_interface.py:101-110 | an update to the current status notifies nobody; a change notifies the callback, if set, once with the new status |
| `Transports.NotificationsNeverRepeat` | meshling/interfaces/base_interface.py:95-110 | for any sequence of updates, the callback never sees the same status twice in a row, and its last notification is the final status |
| `Transports.NotifyStep` | meshling/interfaces/base_interface.py:101-108 | one update keeps the notification log free of repeats and makes it end with the new status |
| `Transports.NoCallbackNoNotifications` | meshling/interfaces/base_interface.py:106 | without a connection callback no update notifies anything |
| `Transports.PacketDictShape` | meshling/interfaces/tcp_interface.py:159-191 | the packet dictionary has exactly the eight header keys, copies the header fields, has an empty `decoded` exactly when the packet is not decoded, and has `text` exactly when the payload's text is truthy, carrying it over unchanged |
| `Transports.ReadPacket` | meshling/interfaces/tcp_interface.py:165-189 | the attribute reads succeed exactly when the packet is an object with the seven header attributes and, when `decoded` is present and truthy, a `decoded` object with `portnum` and `payload`. A successful read carries the sender and recipient over, and has a decoded part exactly when `decoded` is present and truthy |
| `Transports.ReceiveAsWrittenDropsMeshPackets` | meshling/interfaces/tcp_interface.py:169 | as written, reading `packet.from_` fails on every protobuf `MeshPacket`, so every received packet is dropped |
| `Transports.ReceiveReadsMeshPackets` | meshling/interfaces/tcp_interface.py:165-191 | with the sender read as `from`, every `MeshPacket` is translated, its sender and decoded port number carried into the dictionary |
| `Transports.DeviceInfoShape` | meshling/interfaces/tcp_interface.py:196-217 | TCP device info has host, port and type "tcp"; serial device info has port and type "serial"; missing firmware version or hardware model read "Unknown" |
| `Transports.NodeEntryShape` | meshling/interfaces/tcp_interface.py:146-151 | each node entry carries its key as `id` and defaults to an empty user, an empty position and `lastHeard` 0 |
| `Transports.NodeInfoShape` | meshling/interfaces/tcp_interface.py:127-157 | `{}` without a driver or when the driver's `nodes` is not a dictionary; otherwise exactly one normalised entry per node |
| `Transports.Transport.constructor` | meshling/interfaces/base_interface.py:25-29 | a new transport is disconnected, with no callbacks, no device info, no driver handle and no monitor task |
| `Transports.Transport.SetPacketCallback` | meshling/interfaces/base_interface.py:77-84 | the packet callback is replaced |
| `Transports.Transport.SetConnectionCallback` | meshling/interfaces/base_interface.py:86-93 | the status callback is replaced, and the notification invariant is kept |
| `Transports.Transport.UpdateStatus` | meshling/interfaces/base_interface.py:95-110 | the status becomes the new one, and the callback is notified exactly when the status changes; the log never repeats a status |
| `Transports.Transport.HandlePacket` | meshling/interfaces/base_interface.py:112-124 | the packet goes to the callback if one is set, and nowhere otherwise |
| `Transports.Transport.OnReceive` | meshling/interfaces/tcp_interface.py:159-194 | a packet whose attribute reads succeed is translated and handed to the callback, if one is set; a packet whose reads raise is logged and dropped, and nothing is forwarded |
| `Transports.Transport.Connect` | meshling/interfaces/tcp_interface.py:26-66 | CONNECTING, then either CONNECTED, with the new handle, device info and a running monitor, or FAILED; the result is true exactly when the driver opened; the driver is opened once; both status changes are reported |
| `Transports.Transport.Disconnect` | meshling/interfaces/tcp_interface.py:68-91 | the monitor is cancelled, an open driver is closed once even if closing raises, and the transport ends DISCONNECTED with no handle |
| `Transports.Transport.SendMessage` | meshling/interfaces/tcp_interface.py:93-125 | the driver is called only with a handle and status CONNECTED; the result is true exactly when it was called and did not raise |
| `Transports.CollectNodes` | meshling/interfaces/tcp_interface.py:144-153 | the loop over the nodes builds one normalised entry per node and no other key |
| `Transports.Transport.GetNodeInfo` | meshling/interfaces/tcp_interface.py:127-157 | the result is exactly `NodeInfoFor(handle)`, whose shape `NodeInfoShape` states |
| `Transports.Transport.MonitorConnection` | meshling/interfaces/tcp_interface.py:222-239 | while CONNECTED, a wake-up without a driver handle turns the status to FAILED and ends the loop; otherwise the status is untouched |
| `Transports.Transport.SerialConnectAsWritten` | meshling/interfaces/serial_interface.py:25-64 | the serial `connect` as written raises the await-of-None error, ends FAILED and never opens the driver |
| `Transports.Transport.SerialDisconnectAsWritten` | meshling/interfaces/serial_interface.py:66-89 | the serial `disconnect` as written tears down like `Disconnect` and then raises |
| `Transports.SerialConnectAsWrittenNeverOpens` | meshling/interfaces/serial_interface.py:32 | for a driver that would open, the serial connect as written still raises, ends FAILED and makes no driver call |
| `Transports.SerialConnectOpens` | meshling/interfaces/serial_interface.py:37-57 | with the awaits removed, the same input opens the driver and ends CONNECTED |
| `AutoDetection.LikelyDeviceIsCandidate` | meshling/interfaces/auto_detector.py:38-64 | a port is kept exactly when it has a known USB-serial vendor id with a non-zero product id, or a keyword in its lower-cased description, or a path matching the platform's pattern |
| `AutoDetection.CandidatePathsAppend` | meshling/interfaces/auto_detector.py:33-67 | filtering distributes over concatenation of listings, so the filter keeps the listing's order |
| `AutoDetection.CandidatePathsMembership` | meshling/interfaces/auto_detector.py:33-67 | a path is returned exactly when some listed port with that path is a candidate |
| `AutoDetection.FindSerialDevices` | meshling/interfaces/auto_detector.py:21-74 | the loop returns the candidate paths in listing order, or `[]` when the listing raises |
| `AutoDetection.HostNamesDistinct` | meshling/interfaces/auto_detector.py:92-94 | the scanned host names are pairwise distinct |
| `AutoDetection.ReachableSuffixes` | meshling/interfaces/auto_detector.py:99-102 | exactly the reachable host suffixes, strictly increasing, each between 1 and 254 |
| `AutoDetection.TcpDevicesMembership` | meshling/interfaces/auto_detector.py:99-102 | a (host, port) pair is reported exactly when the port is 4403 and the host is `prefix.i` for a reachable i in 1..254 |
| `AutoDetection.FindTcpDevices` | meshling/interfaces/auto_detector.py:77-108 | the hosts `prefix.1` to `prefix.254` are probed in order, and the devices found are exactly `TcpDevicesFor` of the results |
| `AutoDetection.SerialCandidatesMembership` | meshling/interfaces/auto_detector.py:150-153 | a serial port is tried exactly when the port listing succeeded and some listed port with that path passes the candidate test |
| `AutoDetection.TcpCandidatesMembership` | meshling/interfaces/auto_detector.py:86-103 | a TCP host is tried exactly when it is `192.168.1.i` for some i in 1..254 whose probe returned `True`, and always on port 4403 |
| `AutoDetection.FirstOpened` | meshling/interfaces/auto_detector.py:151-159 | the index of the first target that opens: every earlier target fails and the one at the index opens |
| `AutoDetection.DetectedPrefersSerial` | meshling/interfaces/auto_detector.py:149-176 | if any serial candidate opens, the first such serial port is chosen and TCP is never considered |
| `AutoDetection.DetectedNoneIff` | meshling/interfaces/auto_detector.py:175-176 | nothing is detected exactly when no serial and no TCP candidate opens |
| `AutoDetection.FirstOpenedAt` | meshling/interfaces/auto_detector.py:155-157 | a target that opens after only failures is the one chosen |
| `AutoDetection.FirstOpenedNone` | meshling/interfaces/auto_detector.py:158-159 | when every target fails, the search is exhausted |
| `AutoDetection.ChosenNoneIff` | meshling/interfaces/auto_detector.py:149-176 | the first-success search over serial then TCP targets finds nothing exactly when no target opens |
| `AutoDetection.TryTarget` | meshling/interfaces/auto_detector.py:153-159 | one attempt: a fresh transport of the target's kind opens the driver once. When the driver opened, it is connected with the new handle, the device information read from that driver and a running monitor. Otherwise it is disconnected without a handle |
| `AutoDetection.TryTargets` | meshling/interfaces/auto_detector.py:151-159 | the loop connects targets in order and disconnects every one that failed. It returns the first that connects, with that target's handle, device information and running monitor |
| `AutoDetection.DetectSerial` | meshling/interfaces/auto_detector.py:150-159 | the serial phase returns, for the first serial candidate that opens, a transport connected over that candidate's driver, with its handle, device information and monitor. It returns null when none opens |
| `AutoDetection.DetectTcp` | meshling/interfaces/auto_detector.py:163-173 | the TCP phase returns, for the first TCP candidate that opens, a transport connected over that candidate's driver, with its handle, device information and monitor. It returns null when none opens |
| `AutoDetection.AutoDetect` | meshling/interfaces/auto_detector.py:141-176 | TCP is scanned exactly when no serial candidate connects; the result is null exactly when nothing is detected. Otherwise it is the detected target, connected over its driver, with that driver's handle, device information and a running monitor |
| `Connections.SingleReconnectTask` | meshling/core/connection_manager.py:280-283 | over any run of status reports during which no task finishes, at most one reconnection task is started, and one is started exactly when auto-reconnect is on, no task is running and some report is FAILED |
| `Connections.ConnectionManager.constructor` | meshling/core/connection_manager.py:19-23 | no transport, no parameters, no task, auto-reconnect on |
| `Connections.ConnectionManager.DeviceInfoReports` | meshling/core/connection_manager.py:215-223 | `get_device_info` is `{}` without a transport. On a transport connected over a session, it is the device information read from that session's driver, and its type is "serial" or "tcp" |
| `Connections.ConnectionManager.QueriesAgree` | meshling/core/connection_manager.py:31-41 | `is_connected` holds exactly when `connection_status` is CONNECTED; without a transport the status is DISCONNECTED |
| `Connections.ConnectionManager.Adopt` | meshling/core/connection_manager.py:90-97 | the shared success path of the connect methods: the old transport is disconnected (no handle, a running monitor cancelled, an open driver closed once), the new one adopted with both handlers and its parameters, and exactly one CONNECTION_ESTABLISHED event is queued. The adopted transport keeps its status, handle, device information and monitor |
| `Connections.ConnectionManager.SetInterface` | meshling/core/connection_manager.py:244-260 | the old transport is disconnected: it ends DISCONNECTED with no handle, a running monitor is cancelled and an open driver is closed exactly once. The new one is adopted with both handlers installed |
| `Connections.ConnectionManager.ConnectSerial` | meshling/core/connection_manager.py:76-111 | on success: the new transport, connected with the opened driver's handle, its device information and a running monitor; serial parameters; CONNECTION_ESTABLISHED with the port and that device information. On failure: only CONNECTION_FAILED "Failed to connect to <port>" |
| `Connections.ConnectionManager.ConnectTcp` | meshling/core/connection_manager.py:113-150 | as ConnectSerial, with host and port in the payload and "<host>:<port>" in the failure message |
| `Connections.ConnectionManager.AutoConnect` | meshling/core/connection_manager.py:43-74 | succeeds exactly when detection finds a device. The adopted transport is the detected one, connected over its driver with that driver's device information. The payload's interface type is "serial" or "tcp", never "unknown". Otherwise: CONNECTION_FAILED "No devices found" |
| `Connections.ConnectionManager.AdoptDetected` | meshling/core/connection_manager.py:53-60 | the detected transport is adopted with parameters `{'type': 'auto'}` and stays connected over its driver. The CONNECTION_ESTABLISHED payload takes its interface type from the device information, which is "serial" or "tcp" |
| `Connections.ConnectionManager.Disconnect` | meshling/core/connection_manager.py:152-174 | auto-reconnect off, a running task cancelled, the transport disconnected (its monitor cancelled and an open driver closed exactly once) and dropped, the parameters cleared, CONNECTION_LOST "user_requested" emitted |
| `Connections.AutoInterfaceType` | meshling/core/connection_manager.py:57-59 | for any transport kind and driver, the auto-connect payload built from that device information names "serial" or "tcp" as its interface type, never "unknown" |
| `Connections.ConnectionManager.SendMessage` | meshling/core/connection_manager.py:176-213 | PACKET_FAILED "Not connected" unless connected; otherwise the driver is called once, then PACKET_SENT or PACKET_FAILED "Send failed" follows its result; the transport changes only by that driver call |
| `Connections.ConnectionManager.GetNodeInfo` | meshling/core/connection_manager.py:225-233 | the transport's node information while connected, `{}` otherwise |
| `Connections.ConnectionManager.SetAutoReconnect` | meshling/core/connection_manager.py:235-242 | the flag takes the given value |
| `Connections.ConnectionManager.OnPacketReceived` | meshling/core/connection_manager.py:262-270 | one PACKET_RECEIVED event carrying the packet |
| `Connections.ConnectionManager.OnConnectionStatusChanged` | meshling/core/connection_manager.py:272-293 | a reconnection task is started exactly when `StartsReconnect` holds; one DEVICE_STATUS_CHANGED event carries the status string and the device info, or `{}` |
| `Connections.ConnectionManager.AttemptReconnect` | meshling/core/connection_manager.py:295-322 | nothing happens without parameters or with auto-reconnect off; otherwise the connect the parameters name runs once and the parameters are kept. On success the old transport is disconnected, a fresh transport of the named kind (or the detected one) is adopted with both handlers, connected over that target's driver with its device information, and CONNECTION_ESTABLISHED carries that connect's payload. On failure the transport is kept and CONNECTION_FAILED carries that connect's message |
| `Tabs.SubscribeEachAdds` | meshling/ui/widgets/tabs/base_tab.py:64-67 | subscribing a list of pairs adds exactly those callbacks to each type, counted with multiplicity |
| `Tabs.TrackedRoundTrip` | meshling/ui/widgets/tabs/base_tab.py:64-73 | subscribing the tracked pairs and then unsubscribing them all restores every type's subscribers, counted with multiplicity |
| `Tabs.Tab.constructor` | meshling/ui/widgets/tabs/base_tab.py:24-32 | a new tab is inactive, has no updates and tracks no subscriptions |
| `Tabs.Tab.SubscribeToEvent` | meshling/ui/widgets/tabs/base_tab.py:64-67 | subscribes on the bus and appends the pair to the tracked list |
| `Tabs.Tab.UnsubscribeAll` | meshling/ui/widgets/tabs/base_tab.py:69-73 | the loop unsubscribes every tracked pair in order, and leaves the tracked list empty |
| `Tabs.Tab.OnTabActivated` | meshling/ui/widgets/tabs/base_tab.py:75-78 | the tab becomes active and its update flag is cleared |
| `Tabs.Tab.OnTabDeactivated` | meshling/ui/widgets/tabs/base_tab.py:89-92 | the tab becomes inactive and its update flag is kept |
| `Tabs.Tab.MarkUpdated` | meshling/ui/widgets/tabs/base_tab.py:94-97 | the update flag is set only when the tab is inactive; an active tab never shows updates |
| `Tabs.MarkActive` | meshling/ui/widgets/tabs/tab_container.py:24-31 | marking keeps the same set of buttons |
| `Tabs.MarkActiveMarks` | meshling/ui/widgets/tabs/tab_container.py:24-31 | after marking, a button is active exactly when its id is the target and inactive exactly when it is not; update indicators are kept |
| `Tabs.TabBar.constructor` | meshling/ui/widgets/tabs/tab_container.py:44-47 | a new bar has no buttons |
| `Tabs.TabBar.AddTabButton` | meshling/ui/widgets/tabs/tab_container.py:49-54 | the id gets a fresh, unmarked button, replacing any earlier one |
| `Tabs.TabBar.SetActiveTab` | meshling/ui/widgets/tabs/tab_container.py:56-59 | the loop over the buttons yields `MarkActive` of the old buttons |
| `Tabs.TabBar.SetTabUpdates` | meshling/ui/widgets/tabs/tab_container.py:61-64 | a known button's update indicator is set or cleared; an unknown id changes nothing |
| `Tabs.NextTabId` | meshling/ui/widgets/tabs/tab_container.py:141-151 | none exactly when there are no tabs; always a listed id; the first tab when the active id is not listed |
| `Tabs.PreviousTabId` | meshling/ui/widgets/tabs/tab_container.py:153-163 | none exactly when there are no tabs; always a listed id; the last tab when the active id is not listed |
| `Tabs.NextStep` | meshling/ui/widgets/tabs/tab_container.py:147-149 | from a listed id, next is the tab after its first occurrence, wrapping around to the first tab after the last |
| `Tabs.PreviousStep` | meshling/ui/widgets/tabs/tab_container.py:159-161 | from a listed id, previous is the tab before its first occurrence, wrapping around to the last tab before the first |
| `Tabs.PreviousOfFirstIsLast` | meshling/ui/widgets/tabs/tab_container.py:159-161 | the non-negative modulo makes the previous of the first tab the last one |
| `Tabs.NextOfLastIsFirst` | meshling/ui/widgets/tabs/tab_container.py:147-149 | with distinct ids, the next of the last tab is the first one |
| `Tabs.NextIndex` | meshling/ui/widgets/tabs/tab_container.py:147-149 | with distinct ids, next moves the position forward by one, wrapping around from the last position to the first |
| `Tabs.PreviousIndex` | meshling/ui/widgets/tabs/tab_container.py:159-161 | with distinct ids, previous moves the position back by one, wrapping around from the first position to the last |
| `Tabs.PreviousOfNext` | meshling/ui/widgets/tabs/tab_container.py:141-163 | with distinct ids and the active tab listed, previous of next is the active tab |
| `Tabs.NextOfPrevious` | meshling/ui/widgets/tabs/tab_container.py:141-163 | with distinct ids and the active tab listed, next of previous is the active tab |
| `Tabs.NextAt` | meshling/ui/widgets/tabs/tab_container.py:147-149 | with distinct ids, next of the tab at position j is the tab at j+1, or the first tab after the last |
| `Tabs.KeyTarget` | meshling/ui/widgets/tabs/tab_container.py:165-182 | a key press can only target a listed tab |
| `Tabs.DigitKeyTarget` | meshling/ui/widgets/tabs/tab_container.py:177-182 | ctrl+d targets tab d-1 when 1 <= d <= the tab count, and nothing otherwise (ctrl+0 included) |
| `Tabs.TabContainer.constructor` | meshling/ui/widgets/tabs/tab_container.py:70-81 | no tabs, and both the active tab and the shown content start as "channels" |
| `Tabs.TabContainer.AddTab` | meshling/ui/widgets/tabs/tab_container.py:83-99 | the tab is registered under its id, the id is appended to the order, and the bar gets a button; order and registry keep the same ids |
| `Tabs.TabContainer.SwitchToTab` | meshling/ui/widgets/tabs/tab_container.py:101-123 | an unknown id changes nothing; a known id deactivates the previous tab, shows and marks the new one, and activates it |
| `Tabs.TabContainer.MarkTabUpdated` | meshling/ui/widgets/tabs/tab_container.py:134-139 | a known tab is marked updated (a no-op if it is active), and its button's indicator is set either way |
| `Tabs.TabContainer.OnKey` | meshling/ui/widgets/tabs/tab_container.py:165-182 | a key is consumed exactly when it has a target. It then switches to that target: the target is active with its updates cleared, the bar is `MarkActive` of the old buttons, the previously active tab is inactive with its updates kept, and every other tab keeps its flags. Otherwise nothing changes. No tab's subscriptions change |

## Left out

- Logging is left out, and so is the `Event.timestamp` clock reading. Neither affects behaviour.
- Textual composition, mounting, CSS classes other than the three button styles, and `refresh_data` are left out. They are UI or abstract hooks. `on_tab_activated`'s deferred refresh is part of this.
- `on_mount` / `on_unmount` of a tab are not modelled. They call abstract hooks and then `_unsubscribe_all`, which is modelled.
- `on_button_pressed` and `get_tab` are not modelled. One schedules `switch_to_tab` for later and the other is a dictionary lookup.
- `AutoDetector.list_available_devices` is not modelled. It only reformats the two scans, which are modelled.
- `_check_tcp_host` is not modelled. Sockets and timeouts become the probe oracle.
- `Events.EventBus.HandleEvent` iterates over a snapshot of the subscriber list. `_handle_event` iterates over the live list, so a callback that subscribed or unsubscribed for the event's own type during the dispatch would change the rest of it: a removal skips the next subscriber, and an addition is called in the same dispatch. Callbacks are identities in the model and cannot reach the bus. None of the modelled core's own callbacks subscribes or unsubscribes: tabs do that in `on_mount` and `on_unmount`, and the connection manager's handlers are installed on the transport, not on the bus.
- `Connections.ConnectionManager.ConnectSerial` is modelled over the corrected serial `connect`. As written, a port whose driver would open gives CONNECTION_FAILED with the await-of-None `TypeError` text and a false result, because `connect` raises (serial_interface.py:32 and 63, caught at connection_manager.py:106-111).
- `Connections.ConnectionManager.AutoConnect` is modelled over the corrected serial transport. As written, when the listing yields any serial candidate, detection raises on it. `auto_connect` then emits CONNECTION_FAILED with the `TypeError` text and never scans TCP (connection_manager.py:68-74). TCP is reached only when there is no serial candidate.
- `Connections.ConnectionManager.AttemptReconnect` inherits both lines above. As written, a reconnection with serial parameters always ends in CONNECTION_FAILED with the `TypeError` text. With auto parameters it does so whenever a serial candidate exists.
- `AutoDetection.TryTarget` and `AutoDetection.TryTargets` are modelled over the corrected serial transport. As written, trying a serial target raises out of `connect`, and the serial `disconnect` of a failed target raises as well (serial_interface.py:88).
- `AutoDetection.DetectSerial` is modelled over the corrected serial transport. As written, it raises on the first serial candidate (auto_detector.py:155).
- `AutoDetection.AutoDetect` is modelled over the corrected serial transport. As written, it raises whenever a serial candidate exists, and it scans TCP only when the serial listing yields no candidate.
- asyncio concurrency is not modelled: interleaving of tasks, `gather`, cancellation timing and the executor threads. Every coroutine runs to completion when called.
- `Events.EventBus.ProcessEvents` runs until the queue is empty. The real consumer polls forever with a one-second timeout.
- `Connections.ConnectionManager.OnPacketReceived` and `Connections.ConnectionManager.OnConnectionStatusChanged` are modelled as if called directly. The transports install them as callbacks but call them without awaiting. In the running code the coroutines they create never run.
- `Connections.ConnectionManager.AttemptReconnect` does not model the retry after ten seconds. The connect methods catch every exception and report failure by their result, so that branch cannot be reached. The five-second wait is not modelled.
- `Connections.ConnectionManager.SendMessage` does not model the PACKET_FAILED `str(e)` branch (connection_manager.py:208-213). The branch cannot be reached: both transports' `send_message` catch every driver exception and return False (tcp_interface.py:123-125, serial_interface.py:121-123). The model's `Transport.SendMessage` does the same.
- Connections: the `str(e)` failure payloads of the three connect methods are not modelled. With the corrected serial transport nothing reaches those handlers.
- `Transports.Transport.MonitorConnection`: the generic exception branch is not modelled. Nothing in the loop body raises except the sleep, and cancellation is the `wakeups` bound.
- Values: `str.lower` and `str.isdigit` are modelled on ASCII only. Python also lower-cases and accepts non-ASCII letters and digits.
- Transports: protobuf packet fields are opaque `Value`s. `Transports.Transport.OnReceive` reads the sender as `from`, the corrected read (see "## Findings"). A callback that raises inside `_handle_packet` is caught there and does not reach the `except` of `_on_receive`.
- `BaseInterface.device_info` returns a copy. Dafny maps are values, so the model needs no copy.

## Findings

| source | as written | input that shows it | evidently intended | confidence | as-written member | corrected member |
|---|---|---|---|---|---|---|
| meshling/interfaces/serial_interface.py:32 | `connect` awaits the `None` that `_update_status` returns. The `TypeError` is caught, and the handler at line 63 awaits `None` again, so `connect` raises. The driver is never opened. `disconnect` raises the same way at line 88. | A serial port whose driver would open: the status goes CONNECTING, then FAILED, and `connect` raises. The connection manager then reports CONNECTION_FAILED with the TypeError message. Auto-detection raises on the first serial candidate. | Call `_update_status` without `await`, as the TCP transport does. `connect` then opens the driver and returns true. | high (not executed) | `Transports.SerialConnectAsWrittenNeverOpens` | `Transports.SerialConnectOpens` |
| meshling/interfaces/tcp_interface.py:169 | `_on_receive` reads the sender as `packet.from_`. The protobuf `MeshPacket` named in the annotation has the field `from`, a Python keyword, reachable only through `getattr(packet, 'from')`. The read raises AttributeError, the `except` at line 193 logs it, and the packet is dropped. serial_interface.py:169 is the same. | Any `MeshPacket` delivered to `_on_receive`: nothing reaches the packet callback, so the connection manager never emits PACKET_RECEIVED. | Read `getattr(packet, 'from')`; every `MeshPacket` is then translated and forwarded. | medium (not executed; rests on the protobuf field naming of the external driver) | `Transports.ReceiveAsWrittenDropsMeshPackets` | `Transports.ReceiveReadsMeshPackets` |

=== FILE: auto_detector.dfy ===
/**
 * Device auto-detection of meshling/interfaces/auto_detector.py.
 *
 * The operating system's port listing, `platform.system()`, the TCP probes
 * and the meshtastic driver are inputs: an `Environment` carries them. A
 * listing of `None` stands for `comports()` raising.
 */
module AutoDetection {
  import opened Values
  import opened Transports

  /** One entry of the serial port listing. */
  datatype PortInfo = PortInfo(device: string, vid: Option<int>, pid: Option<int>, description: Option<string>)

  /** USB-serial bridge vendor ids common on ESP32 boards. */
  const UsbSerialVids: seq<int> := [0x10C4, 0x1A86, 0x0403, 0x067B]

  /** Description keywords of USB-serial bridges. */
  const DescriptionKeywords: seq<string> := ["cp210", "ch340", "ftdi", "usb serial", "uart"]

  /** Python truthiness of an optional integer: present and non-zero. */
  predicate Truthy(v: Option<int>)
  {
    v.Some? && v.value != 0
  }

  /** Python truthiness of an optional string: present and non-empty. */
  predicate TruthyText(v: Option<string>)
  {
    v.Some? && v.value != ""
  }

  predicate KnownChip(p: PortInfo)
  {
    Truthy(p.vid) && Truthy(p.pid) && p.vid.value in UsbSerialVids
  }

  predicate DescribedAsSerial(p: PortInfo)
  {
    TruthyText(p.description) && exists kw :: kw in DescriptionKeywords && Contains(Lower(p.description.value), kw)
  }

  predicate PathMatchesPlatform(path: string, system: string)
  {
    if system == "Linux" then Contains(path, "/dev/ttyUSB") || Contains(path, "/dev/ttyACM")
    else if system == "Darwin" then Contains(path, "/dev/tty.usbserial") || Contains(path, "/dev/tty.SLAB_USBtoUART")
    else if system == "Windows" then StartsWith(path, "COM")
    else false
  }

  /** The per-port test `find_serial_devices` applies. */
  predicate LikelyDevice(p: PortInfo, system: string)
  {
    KnownChip(p) || DescribedAsSerial(p) || PathMatchesPlatform(p.device, system)
  }

  /** The candidate rule stated with substring occurrence instead of search. */
  ghost predicate IsCandidate(p: PortInfo, system: string)
  {
    || (p.vid.Some? && p.pid.Some? && p.vid.value != 0 && p.pid.value != 0 && p.vid.value in {0x10C4, 0x1A86, 0x0403, 0x067B})
    || (p.description.Some? && |p.description.value| > 0 &&
        exists kw :: kw in {"cp210", "ch340", "ftdi", "usb serial", "uart"} && Occurs(Lower(p.description.value), kw))
    || (system == "Linux" && (Occurs(p.device, "/dev/ttyUSB") || Occurs(p.device, "/dev/ttyACM")))
    || (system == "Darwin" && (Occurs(p.device, "/dev/tty.usbserial") || Occurs(p.device, "/dev/tty.SLAB_USBtoUART")))
    || (system == "Windows" && |p.device| >= 3 && p.device[..3] == "COM")
  }

  /** The test the code runs is exactly the candidate rule. */
  lemma LikelyDeviceIsCandidate(p: PortInfo, system: string)
    ensures LikelyDevice(p, system) <==> IsCandidate(p, system)
  {
    forall kw | kw in DescriptionKeywords && p.description.Some? {
      ContainsOccurs(Lower(p.description.value), kw);
    }
    ContainsOccurs(p.device, "/dev/ttyUSB");
    ContainsOccurs(p.device, "/dev/ttyACM");
    ContainsOccurs(p.device, "/dev/tty.usbserial");
    ContainsOccurs(p.device, "/dev/tty.SLAB_USBtoUART");
  }

  /** The paths of the ports a test keeps, in listing order. */
  function KeptPaths(ports: seq<PortInfo>, keep: PortInfo -> bool): seq<string>
  {
    if ports == [] then []
    else
      var last := ports[|ports| - 1];
      KeptPaths(ports[..|ports| - 1], keep) + (if keep(last) then [last.device] else [])
  }

  /** The paths of the candidate ports, in listing order. */
  function CandidatePaths(ports: seq<PortInfo>, system: string): seq<string>
  {
    KeptPaths(ports, p => LikelyDevice(p, system))
  }

  lemma {:induction false} KeptPathsAppend(a: seq<PortInfo>, b: seq<PortInfo>, keep: PortInfo -> bool)
    ensures KeptPaths(a + b, keep) == KeptPaths(a, keep) + KeptPaths(b, keep)
    decreases |b|
  {
    if b == [] {
      assert a + b == a;
    } else {
      assert (a + b)[..|a + b| - 1] == a + b[..|b| - 1];
      KeptPathsAppend(a, b[..|b| - 1], keep);
    }
  }

  lemma {:induction false} KeptPathsMembership(ports: seq<PortInfo>, keep: PortInfo -> bool, path: string)
    ensures path in KeptPaths(ports, keep) <==>
      exists i :: 0 <= i < |ports| && ports[i].device == path && keep(ports[i])
    decreases |ports|
  {
    if ports != [] {
      var init := ports[..|ports| - 1];
      KeptPathsMembership(init, keep, path);
      if exists i :: 0 <= i < |init| && init[i].device == path && keep(init[i]) {
        var i :| 0 <= i < |init| && init[i].device == path && keep(init[i]);
        assert ports[i] == init[i];
      }
      if exists i :: 0 <= i < |ports| && ports[i].device == path && keep(ports[i]) {
        var i :| 0 <= i < |ports| && ports[i].device == path && keep(ports[i]);
        if i < |init| {
          assert init[i] == ports[i];
        }
      }
    }
  }

  /** Filtering distributes over concatenation, so candidates keep their
      listing order. */
  lemma CandidatePathsAppend(a: seq<PortInfo>, b: seq<PortInfo>, system: string)
    ensures CandidatePaths(a + b, system) == CandidatePaths(a, system) + CandidatePaths(b, system)
  {
    KeptPathsAppend(a, b, p => LikelyDevice(p, system));
  }

  /** A path is reported exactly when some listed port with that path is a
      candidate. */
  lemma CandidatePathsMembership(ports: seq<PortInfo>, system: string, path: string)
    ensures path in CandidatePaths(ports, system) <==>
      exists i :: 0 <= i < |ports| && ports[i].device == path && LikelyDevice(ports[i], system)
  {
    KeptPathsMembership(ports, p => LikelyDevice(p, system), path);
  }

  /** `find_serial_devices`: the paths of the likely Meshtastic ports in
      listing order, or none when listing the ports raises. */
  method FindSerialDevices(listing: Option<seq<PortInfo>>, system: string) returns (ports: seq<string>)
    ensures listing.None? ==> ports == []
    ensures listing.Some? ==> ports == CandidatePaths(listing.value, system)
  {
    ports := [];
    if listing.None? {
      return;
    }
    var available := listing.value;
    for i := 0 to |available|
      invariant ports == CandidatePaths(available[..i], system)
    {
      var port := available[i];
      var likely := false;
      if Truthy(port.vid) && Truthy(port.pid) {
        if port.vid.value in UsbSerialVids {
          likely := true;
        }
      }
      if TruthyText(port.description) {
        var descLower := Lower(port.description.value);
        if exists kw :: kw in DescriptionKeywords && Contains(descLower, kw) {
          likely := true;
        }
      }
      if system == "Linux" {
        if Contains(port.device, "/dev/ttyUSB") || Contains(port.device, "/dev/ttyACM") {
          likely := true;
        }
      } else if system == "Darwin" {
        if Contains(port.device, "/dev/tty.usbserial") || Contains(port.device, "/dev/tty.SLAB_USBtoUART") {
          likely := true;
        }
      } else if system == "Windows" {
        if StartsWith(port.device, "COM") {
          likely := true;
        }
      }
      assert likely == LikelyDevice(port, system);
      assert available[..i + 1][..i] == available[..i];
      if likely {
        ports := ports + [port.device];
      }
    }
    assert available[..|available|] == available;
  }

  // ---------------------------------------------------------------------
  // TCP scan

  const DefaultNetworkRange: string := "192.168.1"

  /** Hosts `prefix.1` to `prefix.254` are probed. */
  const ScanCount: nat := 254

  /** The outcome `gather` reports for one probe: `True`, `False`, or an
      exception object. */
  datatype ProbeResult = Reachable | Unreachable | ProbeError

  /** `f"{network_range}.{i}"`. */
  function HostName(prefix: string, i: nat): string
  {
    prefix + "." + DecimalString(i)
  }

  /** Distinct suffixes give distinct host names. */
  lemma HostNamesDistinct(prefix: string, i: nat, j: nat)
    requires HostName(prefix, i) == HostName(prefix, j)
    ensures i == j
  {
    var n := |prefix| + 1;
    assert DecimalString(i) == HostName(prefix, i)[n..];
    assert DecimalString(j) == HostName(prefix, j)[n..];
    DecimalStringInjective(i, j);
  }

  /** The probe results for `prefix.1` … `prefix.count`, in host order. */
  function Probes(prefix: string, probe: string -> ProbeResult, count: nat): (r: seq<ProbeResult>)
    ensures |r| == count
    ensures forall i :: 0 <= i < count ==> r[i] == probe(HostName(prefix, i + 1))
  {
    seq(count, i requires 0 <= i < count => probe(HostName(prefix, i + 1)))
  }

  /** The host suffixes whose probe result is literally `True`, ascending. */
  function ReachableSuffixes(results: seq<ProbeResult>): (r: seq<nat>)
    ensures forall k :: 0 <= k < |r| ==> 1 <= r[k] <= |results| && results[r[k] - 1] == Reachable
    ensures forall k, l :: 0 <= k < l < |r| ==> r[k] < r[l]
    ensures forall i :: 1 <= i <= |results| && results[i - 1] == Reachable ==> i in r
  {
    if results == [] then []
    else
      var n := |results|;
      var init := ReachableSuffixes(results[..n - 1]);
      init + (if results[n - 1] == Reachable then [n] else [])
  }

  /** The devices the scan reports for these probe results. */
  function TcpDevicesFor(prefix: string, results: seq<ProbeResult>): seq<(string, int)>
  {
    var sfx := ReachableSuffixes(results);
    seq(|sfx|, k requires 0 <= k < |sfx| => (HostName(prefix, sfx[k]), DefaultTcpPort))
  }

  /** A host is reported exactly when its probe returned `True`, always on
      port 4403; hosts whose probe returned `False` or an exception are not. */
  lemma TcpDevicesMembership(prefix: string, results: seq<ProbeResult>, host: string, port: int)
    ensures (host, port) in TcpDevicesFor(prefix, results) <==>
      port == DefaultTcpPort && exists i :: 1 <= i <= |results| && results[i - 1] == Reachable && host == HostName(prefix, i)
  {
    var sfx := ReachableSuffixes(results);
    var d := TcpDevicesFor(prefix, results);
    if (host, port) in d {
      var k :| 0 <= k < |d| && d[k] == (host, port);
      assert results[sfx[k] - 1] == Reachable;
    }
    if port == DefaultTcpPort && exists i :: 1 <= i <= |results| && results[i - 1] == Reachable && host == HostName(prefix, i) {
      var i :| 1 <= i <= |results| && results[i - 1] == Reachable && host == HostName(prefix, i);
      assert i in sfx;
      var k :| 0 <= k < |sfx| && sfx[k] == i;
      assert d[k] == (host, port);
    }
  }

  /** `find_tcp_devices`: probes `prefix.1` … `prefix.254` on port 4403 and
      reports, in ascending order, the hosts whose probe returned `True`. */
  method FindTcpDevices(prefix: string, probe: string -> ProbeResult) returns (probed: seq<string>, devices: seq<(string, int)>)
    ensures |probed| == ScanCount
    ensures forall i :: 0 <= i < ScanCount ==> probed[i] == HostName(prefix, i + 1)
    ensures devices == TcpDevicesFor(prefix, Probes(prefix, probe, ScanCount))
  {
    probed := [];
    var results: seq<ProbeResult> := [];
    for i := 1 to ScanCount + 1
      invariant |probed| == |results| == i - 1
      invariant forall j :: 0 <= j < i - 1 ==> probed[j] == HostName(prefix, j + 1)
      invariant results == Probes(prefix, probe, i - 1)
    {
      var host := HostName(prefix, i);
      probed := probed + [host];
      results := results + [probe(host)];
    }
    devices := [];
    ghost var sfx: seq<nat> := [];
    for i := 0 to |results|
      invariant sfx == ReachableSuffixes(results[..i])
      invariant |devices| == |sfx|
      invariant forall k :: 0 <= k < |sfx| ==> devices[k] == (HostName(prefix, sfx[k]), DefaultTcpPort)
    {
      assert results[..i + 1][..i] == results[..i];
      if results[i] == Reachable {
        devices := devices + [(HostName(prefix, i + 1), DefaultTcpPort)];
        sfx := sfx + [i + 1];
      }
    }
    assert results[..|results|] == results;
  }

  // ---------------------------------------------------------------------
  // First-success search

  /** Everything detection depends on outside the program. */
  datatype Environment = Environment(
    ports: Option<seq<PortInfo>>,
    system: string,
    probe: string -> ProbeResult,
    open: TransportKind -> OpenOutcome)

  function SerialTargets(paths: seq<string>): (r: seq<TransportKind>)
    ensures |r| == |paths| && forall i :: 0 <= i < |paths| ==> r[i] == SerialPort(paths[i])
  {
    seq(|paths|, i requires 0 <= i < |paths| => SerialPort(paths[i]))
  }

  function TcpTargets(devices: seq<(string, int)>): (r: seq<TransportKind>)
    ensures |r| == |devices| && forall i :: 0 <= i < |devices| ==> r[i] == TcpHost(devices[i].0, devices[i].1)
  {
    seq(|devices|, i requires 0 <= i < |devices| => TcpHost(devices[i].0, devices[i].1))
  }

  /** The serial ports detection tries, in order. */
  function SerialCandidates(env: Environment): seq<TransportKind>
  {
    SerialTargets(if env.ports.None? then [] else CandidatePaths(env.ports.value, env.system))
  }

  /** The TCP hosts detection tries, in order. */
  function TcpCandidates(env: Environment): seq<TransportKind>
  {
    TcpTargets(TcpDevicesFor(DefaultNetworkRange, Probes(DefaultNetworkRange, env.probe, ScanCount)))
  }

  /** A serial port is tried exactly when the listing succeeded and some
      listed port with that path passes the candidate test. */
  lemma SerialCandidatesMembership(env: Environment, path: string)
    ensures SerialPort(path) in SerialCandidates(env) <==>
      env.ports.Some? && exists i :: 0 <= i < |env.ports.value| && env.ports.value[i].device == path && LikelyDevice(env.ports.value[i], env.system)
  {
    var paths := if env.ports.None? then [] else CandidatePaths(env.ports.value, env.system);
    assert SerialPort(path) in SerialCandidates(env) <==> path in paths by {
      if SerialPort(path) in SerialCandidates(env) {
        var j :| 0 <= j < |paths| && SerialCandidates(env)[j] == SerialPort(path);
      }
      if path in paths {
        var j :| 0 <= j < |paths| && paths[j] == path;
        assert SerialCandidates(env)[j] == SerialPort(path);
      }
    }
    if env.ports.Some? {
      CandidatePathsMembership(env.ports.value, env.system, path);
    }
  }

  /** A TCP host is tried exactly when it is `192.168.1.i` for some i in
      1..254 whose probe returned `True`, and always on port 4403. */
  lemma TcpCandidatesMembership(env: Environment, host: string, port: int)
    ensures TcpHost(host, port) in TcpCandidates(env) <==>
      port == DefaultTcpPort && exists i :: 1 <= i <= ScanCount && env.probe(HostName(DefaultNetworkRange, i)) == Reachable && host == HostName(DefaultNetworkRange, i)
  {
    var results := Probes(DefaultNetworkRange, env.probe, ScanCount);
    var devices := TcpDevicesFor(DefaultNetworkRange, results);
    assert TcpHost(host, port) in TcpCandidates(env) <==> (host, port) in devices by {
      if TcpHost(host, port) in TcpCandidates(env) {
        var j :| 0 <= j < |devices| && TcpCandidates(env)[j] == TcpHost(host, port);
        assert devices[j] == (host, port);
      }
      if (host, port) in devices {
        var j :| 0 <= j < |devices| && devices[j] == (host, port);
        assert TcpCandidates(env)[j] == TcpHost(host, port);
      }
    }
    TcpDevicesMembership(DefaultNetworkRange, results, host, port);
    assert forall i :: 1 <= i <= ScanCount ==> results[i - 1] == env.probe(HostName(DefaultNetworkRange, i));
  }

  /** The position of the first target that opens, or the number of targets. */
  function FirstOpened(targets: seq<TransportKind>, open: TransportKind -> OpenOutcome): (k: nat)
    ensures k <= |targets|
    ensures forall j :: 0 <= j < k ==> !open(targets[j]).Opened?
    ensures k < |targets| ==> open(targets[k]).Opened?
  {
    if targets == [] then 0
    else if open(targets[0]).Opened? then 0
    else 1 + FirstOpened(targets[1..], open)
  }

  /** The target a search settles on: the first serial target that opens,
      otherwise the first TCP target that opens, otherwise none. */
  function Chosen(st: seq<TransportKind>, tt: seq<TransportKind>, open: TransportKind -> OpenOutcome): Option<TransportKind>
  {
    var ks := FirstOpened(st, open);
    var kt := FirstOpened(tt, open);
    if ks < |st| then Some(st[ks])
    else if kt < |tt| then Some(tt[kt])
    else None
  }

  /** The transport detection settles on in a given environment. */
  function Detected(env: Environment): Option<TransportKind>
  {
    Chosen(SerialCandidates(env), TcpCandidates(env), env.open)
  }

  /** Serial comes first: when some serial candidate opens, a serial port is
      chosen, and it is the first one that opens. */
  lemma DetectedPrefersSerial(env: Environment, i: nat)
    requires i < |SerialCandidates(env)| && env.open(SerialCandidates(env)[i]).Opened?
    ensures Detected(env).Some? && Detected(env).value.SerialPort?
    ensures var k := FirstOpened(SerialCandidates(env), env.open);
      k <= i && Detected(env) == Some(SerialCandidates(env)[k])
  {
    var st := SerialCandidates(env);
    assert st[FirstOpened(st, env.open)] in st;
  }

  /** Detection finds nothing exactly when no candidate, serial or TCP, opens. */
  lemma DetectedNoneIff(env: Environment)
    ensures Detected(env).None? <==>
      forall k :: k in SerialCandidates(env) + TcpCandidates(env) ==> !env.open(k).Opened?
  {
    ChosenNoneIff(SerialCandidates(env), TcpCandidates(env), env.open);
  }

  lemma ChosenNoneIff(st: seq<TransportKind>, tt: seq<TransportKind>, open: TransportKind -> OpenOutcome)
    ensures Chosen(st, tt, open).None? <==> forall k :: k in st + tt ==> !open(k).Opened?
  {
    if Chosen(st, tt, open).None? {
      forall k | k in st + tt ensures !open(k).Opened? {
        var i :| 0 <= i < |st + tt| && (st + tt)[i] == k;
        if i >= |st| {
          assert k == tt[i - |st|];
        }
      }
    } else {
      var k := Chosen(st, tt, open).value;
      assert k in st + tt;
    }
  }

  /** One candidate loop of `auto_detect`: each target is connected in turn;
      a target that fails is disconnected before the next is tried, and the
      loop returns the first one that connects. */
  method TryTargets(targets: seq<TransportKind>, open: TransportKind -> OpenOutcome)
    returns (chosen: Transport?, ghost released: seq<Transport>)
    ensures var k := FirstOpened(targets, open);
      && (chosen != null <==> k < |targets|)
      && (chosen != null ==> fresh(chosen) && chosen.Valid() && chosen.kind == targets[k]
                             && chosen.OpenedWith(open(targets[k]).session))
      && |released| == k
      && forall i :: 0 <= i < k ==>
           && fresh(released[i]) && released[i].kind == targets[i]
           && released[i].status == Disconnected && released[i].handle == None
           && released[i].driverCalls == [Open(targets[i])]
  {
    released := [];
    var i := 0;
    while i < |targets|
      invariant i <= |targets|
      invariant forall j :: 0 <= j < i ==> !open(targets[j]).Opened?
      invariant |released| == i
      invariant forall j :: 0 <= j < i ==>
        && fresh(released[j]) && released[j].kind == targets[j]
        && released[j].status == Disconnected && released[j].handle == None
        && released[j].driverCalls == [Open(targets[j])]
      decreases |targets| - i
    {
      var t, ok := TryTarget(targets[i], open(targets[i]));
      if ok {
        FirstOpenedAt(targets, open, i);
        return t, released;
      }
      released := released + [t];
      i := i + 1;
    }
    FirstOpenedNone(targets, open);
    chosen := null;
  }

  /** One iteration of a candidate loop: a new transport for the target is
      connected, and disconnected again when connecting fails. */
  method TryTarget(target: TransportKind, outcome: OpenOutcome) returns (t: Transport, ok: bool)
    ensures fresh(t) && t.Valid() && t.kind == target
    ensures ok <==> outcome.Opened?
    ensures ok ==> t.OpenedWith(outcome.session)
    ensures !ok ==> t.status == Disconnected && t.handle == None
    ensures t.driverCalls == [Open(target)]
  {
    t := new Transport(target);
    ok := t.Connect(outcome);
    if !ok {
      // nothing is open, so closing cannot raise
      t.Disconnect(false);
    }
  }

  lemma FirstOpenedAt(targets: seq<TransportKind>, open: TransportKind -> OpenOutcome, i: nat)
    requires i < |targets| && open(targets[i]).Opened?
    requires forall j :: 0 <= j < i ==> !open(targets[j]).Opened?
    ensures FirstOpened(targets, open) == i
  {
  }

  lemma FirstOpenedNone(targets: seq<TransportKind>, open: TransportKind -> OpenOutcome)
    requires forall j :: 0 <= j < |targets| ==> !open(targets[j]).Opened?
    ensures FirstOpened(targets, open) == |targets|
  {
  }

  /** The serial half of `auto_detect`: list the candidate ports and try them in order. */
  method DetectSerial(env: Environment) returns (chosen: Transport?)
    ensures var st := SerialCandidates(env); var k := FirstOpened(st, env.open);
      && (chosen != null <==> k < |st|)
      && (chosen != null ==> fresh(chosen) && chosen.Valid() && chosen.kind == st[k] && chosen.OpenedWith(env.open(st[k]).session))
  {
    var paths := FindSerialDevices(env.ports, env.system);
    var targets := SerialTargets(paths);
    assert targets == SerialCandidates(env);
    ghost var released;
    chosen, released := TryTargets(targets, env.open);
  }

  /** The TCP half of `auto_detect`: scan the default network and try the hosts found, in order. */
  method DetectTcp(env: Environment) returns (chosen: Transport?)
    ensures var tt := TcpCandidates(env); var k := FirstOpened(tt, env.open);
      && (chosen != null <==> k < |tt|)
      && (chosen != null ==> fresh(chosen) && chosen.Valid() && chosen.kind == tt[k] && chosen.OpenedWith(env.open(tt[k]).session))
  {
    var probed, devices := FindTcpDevices(DefaultNetworkRange, env.probe);
    var targets := TcpTargets(devices);
    assert targets == TcpCandidates(env);
    ghost var released;
    chosen, released := TryTargets(targets, env.open);
  }

  /** `auto_detect`: serial candidates first; the TCP scan runs only when no
      serial candidate connects. Returns the connected transport the search
      settles on, or null. Every candidate that fails to connect is
      disconnected again, as `TryTargets` states. */
  method AutoDetect(env: Environment) returns (chosen: Transport?, scannedTcp: bool)
    ensures scannedTcp <==> FirstOpened(SerialCandidates(env), env.open) == |SerialCandidates(env)|
    ensures chosen == null <==> Detected(env).None?
    ensures chosen != null ==> fresh(chosen) && chosen.Valid() && Detected(env) == Some(chosen.kind)
    ensures chosen != null ==> chosen.OpenedWith(env.open(chosen.kind).session)
  {
    chosen := DetectSerial(env);
    if chosen != null {
      scannedTcp := false;
      return;
    }
    scannedTcp := true;
    chosen := DetectTcp(env);
  }
}

=== FILE: connection_manager.dfy ===
/**
 * The connection manager of meshling/core/connection_manager.py: it owns the
 * active transport, remembers how it was connected, emits connection events
 * on the bus and decides when to start a reconnection attempt.
 *
 * The manager installs its two handlers on each transport it adopts; they
 * are callback identities here, as everywhere in the model. The handler
 * methods `OnPacketReceived` and `OnConnectionStatusChanged` are modelled as
 * if the transport invoked them directly.
 */
module Connections {
  import opened Values
  import opened Events
  import opened Transports
  import opened AutoDetection

  /** The `_connection_params` dictionary: `{'type': 'serial', 'port': …}`,
      `{'type': 'tcp', 'host': …, 'port': …}` or `{'type': 'auto'}`. */
  datatype ConnectionParams = SerialParams(path: string) | TcpParams(host: string, port: int) | AutoParams

  /** `_on_packet_received` and `_on_connection_status_changed` as installed
      callbacks; calling either only creates a coroutine, which never raises. */
  const PacketHandler: Callback := Callback(0, false)
  const StatusHandler: Callback := Callback(1, false)

  /** Seconds `_attempt_reconnect` waits before reconnecting. */
  const ReconnectDelaySeconds: nat := 5

  /** The payload of CONNECTION_ESTABLISHED after a serial connect. */
  function SerialEstablished(port: string, info: map<string, Value>): map<string, Value>
  {
    map["interface_type" := Str("serial"), "port" := Str(port), "device_info" := Dict(info)]
  }

  /** The payload of CONNECTION_ESTABLISHED after a TCP connect. */
  function TcpEstablished(host: string, port: int, info: map<string, Value>): map<string, Value>
  {
    map["interface_type" := Str("tcp"), "host" := Str(host), "port" := Int(port), "device_info" := Dict(info)]
  }

  /** The payload of CONNECTION_ESTABLISHED after auto-detection: the type
      recorded in the device information, or "unknown". */
  function AutoEstablished(info: map<string, Value>): map<string, Value>
  {
    map["interface_type" := DictGet(info, "type", Str("unknown")), "device_info" := Dict(info)]
  }

  /** An auto-detected transport's device information always records its
      type, so the CONNECTION_ESTABLISHED payload names "serial" or "tcp" and
      never falls back to "unknown". */
  lemma AutoInterfaceType(kind: TransportKind, driver: Value)
    ensures AutoEstablished(DeviceInfoFor(kind, driver))["interface_type"] == Str(if kind.TcpHost? then "tcp" else "serial")
  {
    DeviceInfoShape(kind, driver);
  }

  function ErrorPayload(message: string): map<string, Value>
  {
    map["error" := Str(message)]
  }

  /** `f'{host}:{port}'`. */
  function HostPort(host: string, port: int): string
  {
    host + ":" + IntString(port)
  }

  /** The payload of DEVICE_STATUS_CHANGED. */
  function StatusPayload(status: ConnectionStatus, info: map<string, Value>): map<string, Value>
  {
    map["status" := Str(StatusValue(status)), "device_info" := Dict(info)]
  }

  /** The payload of PACKET_SENT; a missing destination is `None`. */
  function SentPayload(text: string, destination: Option<string>): map<string, Value>
  {
    map["text" := Str(text), "destination" := if destination.Some? then Str(destination.value) else Null]
  }

  /** Whether the status handler starts a reconnection task: only on FAILED,
      only with auto-reconnect on, and only when no task is still running
      (a finished or cancelled task counts as done). */
  predicate StartsReconnect(status: ConnectionStatus, autoReconnect: bool, task: TaskState)
  {
    status == Failed && autoReconnect && task != Running
  }

  /** How many reconnection tasks the status handler starts over a run of
      status reports during which no task finishes: a started task stays
      `Running` for the rest of the run. */
  function ReconnectStarts(statuses: seq<ConnectionStatus>, autoReconnect: bool, task: TaskState): nat
  {
    if statuses == [] then 0
    else if StartsReconnect(statuses[0], autoReconnect, task) then 1 + ReconnectStarts(statuses[1..], autoReconnect, Running)
    else ReconnectStarts(statuses[1..], autoReconnect, task)
  }

  /** Repeated FAILED reports never start a second reconnection task while
      the first one runs, and one is started exactly when auto-reconnect is
      on, no task is running yet and some report is FAILED. */
  lemma {:induction false} SingleReconnectTask(statuses: seq<ConnectionStatus>, autoReconnect: bool, task: TaskState)
    ensures ReconnectStarts(statuses, autoReconnect, task) <= 1
    ensures ReconnectStarts(statuses, autoReconnect, task) == 1 <==> autoReconnect && task != Running && Failed in statuses
  {
    if statuses != [] {
      SingleReconnectTask(statuses[1..], autoReconnect, task);
      if StartsReconnect(statuses[0], autoReconnect, task) {
        NoStartWhileRunning(statuses[1..], autoReconnect);
      } else if statuses[0] == Failed && autoReconnect {
        assert task == Running;
        NoStartWhileRunning(statuses[1..], autoReconnect);
      }
    }
  }

  /** While a task is running the handler starts nothing. */
  lemma {:induction false} NoStartWhileRunning(statuses: seq<ConnectionStatus>, autoReconnect: bool)
    ensures ReconnectStarts(statuses, autoReconnect, Running) == 0
  {
    if statuses != [] {
      NoStartWhileRunning(statuses[1..], autoReconnect);
    }
  }

  /** Connection failures for distinct ports of one host carry distinct
      error messages. */
  lemma TcpFailureNamesPort(host: string, port1: int, port2: int)
    requires ErrorPayload("Failed to connect to " + HostPort(host, port1)) == ErrorPayload("Failed to connect to " + HostPort(host, port2))
    ensures port1 == port2
  {
    var m1 := "Failed to connect to " + HostPort(host, port1);
    var m2 := "Failed to connect to " + HostPort(host, port2);
    assert Str(m1) == ErrorPayload(m1)["error"] == ErrorPayload(m2)["error"] == Str(m2);
    HostPortNamesPort("Failed to connect to ", host, port1, port2);
  }

  /** After any common leading text, the text after the host names the
      port, so equal messages name equal ports. */
  lemma HostPortNamesPort(lead: string, host: string, port1: int, port2: int)
    requires lead + HostPort(host, port1) == lead + HostPort(host, port2)
    ensures port1 == port2
  {
    SameSuffix(lead, HostPort(host, port1), HostPort(host, port2));
    SameSuffix(host + ":", IntString(port1), IntString(port2));
    IntStringInjective(port1, port2);
  }

  /** Equal strings with equal prefixes have equal suffixes. */
  lemma SameSuffix(a: string, b: string, c: string)
    requires a + b == a + c
    ensures b == c
  {
    assert b == (a + b)[|a|..];
    assert c == (a + c)[|a|..];
  }

  /** The transport a reconnection with these parameters ends up adopting
      when it succeeds: the named port or host, or whatever detection finds. */
  function ReconnectTarget(p: ConnectionParams, env: Environment): Option<TransportKind>
  {
    match p
    case SerialParams(path) => Some(SerialPort(path))
    case TcpParams(host, port) => Some(TcpHost(host, port))
    case AutoParams => Detected(env)
  }

  /** Whether the connect call a reconnection makes succeeds. */
  predicate ReconnectOpens(p: ConnectionParams, env: Environment)
  {
    ReconnectTarget(p, env).Some? && env.open(ReconnectTarget(p, env).value).Opened?
  }

  /** The CONNECTION_ESTABLISHED payload of the connect call the parameters name. */
  function EstablishedPayload(p: ConnectionParams, info: map<string, Value>): map<string, Value>
  {
    match p
    case SerialParams(path) => SerialEstablished(path, info)
    case TcpParams(host, port) => TcpEstablished(host, port, info)
    case AutoParams => AutoEstablished(info)
  }

  /** The CONNECTION_FAILED message of the connect call the parameters name. */
  function FailureMessage(p: ConnectionParams): string
  {
    match p
    case SerialParams(path) => "Failed to connect to " + path
    case TcpParams(host, port) => "Failed to connect to " + HostPort(host, port)
    case AutoParams => "No devices found"
  }

  class ConnectionManager {
    /** The process-wide event bus. */
    const bus: EventBus
    var iface: Transport?
    var autoReconnect: bool
    var params: Option<ConnectionParams>
    var reconnectTask: TaskState

    ghost predicate Valid()
      reads this, iface
    {
      iface != null ==> iface.Valid()
    }

    /** A new manager has no transport, no parameters and no reconnection
        task, and reconnects automatically. */
    constructor (bus: EventBus)
      ensures Valid()
      ensures this.bus == bus
      ensures iface == null && autoReconnect && params == None && reconnectTask == NoTask
    {
      this.bus := bus;
      iface := null;
      autoReconnect := true;
      params := None;
      reconnectTask := NoTask;
    }

    /** `is_connected`. */
    predicate IsConnected()
      reads this, iface
    {
      iface != null && iface.status == Connected
    }

    /** `connection_status`. */
    function Status(): ConnectionStatus
      reads this, iface
    {
      if iface != null then iface.status else Disconnected
    }

    /** The two queries agree: connected exactly when the status is
        CONNECTED, and DISCONNECTED without a transport. */
    lemma QueriesAgree()
      ensures IsConnected() <==> Status() == Connected
      ensures iface == null ==> Status() == Disconnected && !IsConnected()
    {
    }

    /** `get_device_info`. */
    function DeviceInfo(): map<string, Value>
      reads this, iface
    {
      if iface != null then iface.deviceInfo else map[]
    }

    /** `get_device_info` is `{}` without a transport; on a transport that
        connected over a session it is the information read from that
        session's driver, which names the transport's type. */
    lemma DeviceInfoReports(session: Session)
      ensures iface == null ==> DeviceInfo() == map[]
      ensures iface != null && iface.OpenedWith(session) ==>
        (DeviceInfo() == DeviceInfoFor(iface.kind, session.driver)
         && DeviceInfo()["type"] == Str(if iface.kind.TcpHost? then "tcp" else "serial"))
    {
      if iface != null {
        DeviceInfoShape(iface.kind, session.driver);
      }
    }

    /** `_set_interface`: disconnects the transport in use, adopts the new
        one and installs both handlers on it. */
    method SetInterface(t: Transport, closeRaises: bool)
      requires Valid() && t.Valid() && t != iface
      modifies this`iface, iface, t`packetCallback, t`connectionCallback
      ensures Valid()
      ensures iface == t
      ensures old(iface) != null ==> old(iface).ReleasedFrom(old(iface.monitor), old(iface.handle), old(iface.driverCalls))
      ensures t.packetCallback == Some(PacketHandler) && t.connectionCallback == Some(StatusHandler)
    {
      if iface != null {
        iface.Disconnect(closeRaises);
      }
      iface := t;
      t.SetPacketCallback(PacketHandler);
      t.SetConnectionCallback(StatusHandler);
    }

    /** The success path shared by the three connect operations: the new
        transport replaces the old one, the parameters are recorded and
        CONNECTION_ESTABLISHED is emitted with the given payload. */
    method Adopt(t: Transport, p: ConnectionParams, payload: map<string, Value>, closeRaises: bool)
      requires Valid() && t.Valid() && t != iface
      modifies this`iface, this`params, iface, t`packetCallback, t`connectionCallback, bus`queue
      ensures Valid()
      ensures iface == t && params == Some(p)
      ensures old(iface) != null ==> old(iface).ReleasedFrom(old(iface.monitor), old(iface.handle), old(iface.driverCalls))
      ensures t.packetCallback == Some(PacketHandler) && t.connectionCallback == Some(StatusHandler)
      ensures t.status == old(t.status) && t.handle == old(t.handle)
      ensures t.deviceInfo == old(t.deviceInfo) && t.monitor == old(t.monitor)
      ensures bus.queue == old(bus.queue) + [Event(ConnectionEstablished, payload)]
    {
      SetInterface(t, closeRaises);
      params := Some(p);
      bus.Emit(ConnectionEstablished, Some(payload));
    }

    /** `connect_serial`: on success the new transport replaces the old one,
        the parameters are recorded and CONNECTION_ESTABLISHED is emitted; on
        failure CONNECTION_FAILED is emitted and nothing else changes. */
    method ConnectSerial(port: string, open: OpenOutcome, closeRaises: bool) returns (ok: bool)
      requires Valid()
      modifies this, iface, bus`queue
      ensures Valid()
      ensures ok <==> open.Opened?
      ensures ok ==> (fresh(iface) && iface.kind == SerialPort(port) && iface.OpenedWith(open.session)
        && params == Some(SerialParams(port))
        && iface.packetCallback == Some(PacketHandler) && iface.connectionCallback == Some(StatusHandler)
        && bus.queue == old(bus.queue) + [Event(ConnectionEstablished, SerialEstablished(port, iface.deviceInfo))])
      ensures ok && old(iface) != null ==> old(iface).ReleasedFrom(old(iface.monitor), old(iface.handle), old(iface.driverCalls))
      ensures !ok ==> (iface == old(iface) && params == old(params)
        && bus.queue == old(bus.queue) + [Event(ConnectionFailed, ErrorPayload("Failed to connect to " + port))])
      ensures !ok && old(iface) != null ==> unchanged(old(iface))
      ensures autoReconnect == old(autoReconnect) && reconnectTask == old(reconnectTask)
    {
      var t := new Transport(SerialPort(port));
      ok := t.Connect(open);
      if ok {
        Adopt(t, SerialParams(port), SerialEstablished(port, t.deviceInfo), closeRaises);
      } else {
        bus.Emit(ConnectionFailed, Some(ErrorPayload("Failed to connect to " + port)));
      }
    }

    /** `connect_tcp`: as `ConnectSerial`, for a host and port. */
    method ConnectTcp(host: string, port: int, open: OpenOutcome, closeRaises: bool) returns (ok: bool)
      requires Valid()
      modifies this, iface, bus`queue
      ensures Valid()
      ensures ok <==> open.Opened?
      ensures ok ==> (fresh(iface) && iface.kind == TcpHost(host, port) && iface.OpenedWith(open.session)
        && params == Some(TcpParams(host, port))
        && iface.packetCallback == Some(PacketHandler) && iface.connectionCallback == Some(StatusHandler)
        && bus.queue == old(bus.queue) + [Event(ConnectionEstablished, TcpEstablished(host, port, iface.deviceInfo))])
      ensures ok && old(iface) != null ==> old(iface).ReleasedFrom(old(iface.monitor), old(iface.handle), old(iface.driverCalls))
      ensures !ok ==> (iface == old(iface) && params == old(params)
        && bus.queue == old(bus.queue) + [Event(ConnectionFailed, ErrorPayload("Failed to connect to " + HostPort(host, port)))])
      ensures !ok && old(iface) != null ==> unchanged(old(iface))
      ensures autoReconnect == old(autoReconnect) && reconnectTask == old(reconnectTask)
    {
      var t := new Transport(TcpHost(host, port));
      ok := t.Connect(open);
      if ok {
        Adopt(t, TcpParams(host, port), TcpEstablished(host, port, t.deviceInfo), closeRaises);
      } else {
        bus.Emit(ConnectionFailed, Some(ErrorPayload("Failed to connect to " + HostPort(host, port))));
      }
    }

    /** The success path of `auto_connect`: the detected transport, connected
        over `session`, is adopted with parameters `{'type': 'auto'}`, and the
        CONNECTION_ESTABLISHED payload takes its type from the device
        information, which is always "serial" or "tcp". */
    method AdoptDetected(t: Transport, ghost session: Session, closeRaises: bool)
      requires Valid() && t.Valid() && t != iface && t.OpenedWith(session)
      modifies this`iface, this`params, iface, t`packetCallback, t`connectionCallback, bus`queue
      ensures Valid()
      ensures iface == t && params == Some(AutoParams) && t.OpenedWith(session)
      ensures old(iface) != null ==> old(iface).ReleasedFrom(old(iface.monitor), old(iface.handle), old(iface.driverCalls))
      ensures t.packetCallback == Some(PacketHandler) && t.connectionCallback == Some(StatusHandler)
      ensures bus.queue == old(bus.queue) + [Event(ConnectionEstablished, AutoEstablished(t.deviceInfo))]
      ensures AutoEstablished(t.deviceInfo)["interface_type"] == Str(if t.kind.TcpHost? then "tcp" else "serial")
    {
      AutoInterfaceType(t.kind, session.driver);
      Adopt(t, AutoParams, AutoEstablished(t.deviceInfo), closeRaises);
    }

    /** `auto_connect`: adopts the transport auto-detection settles on and
        emits CONNECTION_ESTABLISHED, or emits CONNECTION_FAILED with
        "No devices found". */
    method AutoConnect(env: Environment, closeRaises: bool) returns (ok: bool)
      requires Valid()
      modifies this`iface, this`params, iface, bus`queue
      ensures Valid()
      ensures ok <==> Detected(env).Some?
      ensures ok ==> (fresh(iface) && Detected(env) == Some(iface.kind) && iface.OpenedWith(env.open(iface.kind).session)
        && params == Some(AutoParams)
        && iface.packetCallback == Some(PacketHandler) && iface.connectionCallback == Some(StatusHandler)
        && bus.queue == old(bus.queue) + [Event(ConnectionEstablished, AutoEstablished(iface.deviceInfo))])
      ensures ok ==> AutoEstablished(iface.deviceInfo)["interface_type"] == Str(if iface.kind.TcpHost? then "tcp" else "serial")
      ensures ok && old(iface) != null ==> old(iface).ReleasedFrom(old(iface.monitor), old(iface.handle), old(iface.driverCalls))
      ensures !ok ==> (iface == old(iface) && params == old(params)
        && bus.queue == old(bus.queue) + [Event(ConnectionFailed, ErrorPayload("No devices found"))])
      ensures !ok && old(iface) != null ==> unchanged(old(iface))
      ensures autoReconnect == old(autoReconnect) && reconnectTask == old(reconnectTask)
    {
      var chosen, scannedTcp := AutoDetect(env);
      if chosen != null {
        AdoptDetected(chosen, env.open(chosen.kind).session, closeRaises);
        ok := true;
      } else {
        bus.Emit(ConnectionFailed, Some(ErrorPayload("No devices found")));
        ok := false;
      }
    }

    /** `disconnect`: the same steps whether or not anything is connected —
        auto-reconnect off, a running reconnection task cancelled, the
        transport disconnected and dropped, the parameters cleared, and
        CONNECTION_LOST emitted with reason "user_requested". */
    method Disconnect(closeRaises: bool)
      requires Valid()
      modifies this, iface, bus`queue
      ensures Valid()
      ensures !autoReconnect && iface == null && params == None
      ensures reconnectTask == if old(reconnectTask) == Running then Cancelled else old(reconnectTask)
      ensures old(iface) != null ==> old(iface).ReleasedFrom(old(iface.monitor), old(iface.handle), old(iface.driverCalls))
      ensures bus.queue == old(bus.queue) + [Event(ConnectionLost, map["reason" := Str("user_requested")])]
    {
      autoReconnect := false;
      if reconnectTask == Running {
        reconnectTask := Cancelled;
      }
      if iface != null {
        iface.Disconnect(closeRaises);
        iface := null;
      }
      params := None;
      bus.Emit(ConnectionLost, Some(map["reason" := Str("user_requested")]));
    }

    /** `send_message`: refused with PACKET_FAILED "Not connected" unless
        connected; otherwise PACKET_SENT on success and PACKET_FAILED
        "Send failed" when the transport reports failure. */
    method SendMessage(text: string, destination: Option<string>, sendRaises: bool) returns (ok: bool)
      requires Valid()
      modifies iface, bus`queue
      ensures Valid()
      ensures ok <==> old(IsConnected()) && iface.handle.Some? && !sendRaises
      ensures !old(IsConnected()) ==> bus.queue == old(bus.queue) + [Event(PacketFailed, ErrorPayload("Not connected"))]
      ensures iface == old(iface)
      ensures iface != null ==>
        (iface.driverCalls == old(iface.driverCalls) +
          (if old(IsConnected()) && iface.handle.Some? then [SendText(iface.handle.value, text, destination)] else []))
      ensures iface != null ==> iface.status == old(iface.status) && iface.handle == old(iface.handle)
      ensures iface != null ==> (iface.deviceInfo == old(iface.deviceInfo) && iface.monitor == old(iface.monitor)
        && iface.notified == old(iface.notified) && iface.forwarded == old(iface.forwarded)
        && iface.packetCallback == old(iface.packetCallback) && iface.connectionCallback == old(iface.connectionCallback))
      ensures old(IsConnected()) ==> (bus.queue == old(bus.queue) +
        [if ok then Event(PacketSent, SentPayload(text, destination)) else Event(PacketFailed, ErrorPayload("Send failed"))])
    {
      if !IsConnected() {
        bus.Emit(PacketFailed, Some(ErrorPayload("Not connected")));
        return false;
      }
      ok := iface.SendMessage(text, destination, sendRaises);
      if ok {
        bus.Emit(PacketSent, Some(SentPayload(text, destination)));
      } else {
        bus.Emit(PacketFailed, Some(ErrorPayload("Send failed")));
      }
    }

    /** `get_node_info`: the transport's nodes while connected, `{}` otherwise. */
    method GetNodeInfo() returns (info: map<string, Value>)
      ensures !IsConnected() ==> info == map[]
      ensures IsConnected() ==> info == NodeInfoFor(iface.handle)
    {
      if IsConnected() {
        info := iface.GetNodeInfo();
      } else {
        info := map[];
      }
    }

    /** `set_auto_reconnect`. */
    method SetAutoReconnect(enabled: bool)
      modifies this`autoReconnect
      ensures autoReconnect == enabled
    {
      autoReconnect := enabled;
    }

    /** `_on_packet_received`: republishes the packet as PACKET_RECEIVED. */
    method OnPacketReceived(packet: map<string, Value>)
      modifies bus`queue
      ensures bus.queue == old(bus.queue) + [Event(PacketReceived, map["packet" := Dict(packet)])]
    {
      bus.Emit(PacketReceived, Some(map["packet" := Dict(packet)]));
    }

    /** `_on_connection_status_changed`: starts a reconnection task when
        `StartsReconnect` says so, and always emits DEVICE_STATUS_CHANGED. */
    method OnConnectionStatusChanged(status: ConnectionStatus)
      modifies this`reconnectTask, bus`queue
      ensures reconnectTask == if StartsReconnect(status, autoReconnect, old(reconnectTask)) then Running else old(reconnectTask)
      ensures bus.queue == old(bus.queue) + [Event(DeviceStatusChanged, StatusPayload(status, DeviceInfo()))]
    {
      if status == Failed && autoReconnect {
        if reconnectTask != Running {
          reconnectTask := Running;
        }
      }
      var info := if iface != null then iface.deviceInfo else map[];
      bus.Emit(DeviceStatusChanged, Some(StatusPayload(status, info)));
    }

    /** `_attempt_reconnect`, run as the reconnection task after its delay:
        nothing without parameters or with auto-reconnect off; otherwise the
        connect call the parameters name. The connect calls report failure by
        their result rather than by raising, so the reconnection coroutine never reaches its
        retry branch and always ends after one attempt. */
    method AttemptReconnect(env: Environment, closeRaises: bool) returns (attempted: bool)
      requires Valid()
      modifies this, iface, bus`queue
      ensures Valid()
      ensures attempted <==> old(params).Some? && old(autoReconnect)
      ensures !attempted ==> iface == old(iface) && params == old(params) && bus.queue == old(bus.queue)
      ensures autoReconnect == old(autoReconnect)
      ensures reconnectTask == Done
      ensures params == old(params)
      ensures attempted ==> (ReconnectOpens(old(params).value, env) <==> iface != old(iface))
      ensures attempted && ReconnectOpens(old(params).value, env) ==>
        fresh(iface) && ReconnectTarget(old(params).value, env) == Some(iface.kind) && iface.OpenedWith(env.open(iface.kind).session)
        && iface.packetCallback == Some(PacketHandler) && iface.connectionCallback == Some(StatusHandler)
        && bus.queue == old(bus.queue) + [Event(ConnectionEstablished, EstablishedPayload(old(params).value, iface.deviceInfo))]
      ensures attempted && ReconnectOpens(old(params).value, env) && old(iface) != null ==>
        old(iface).ReleasedFrom(old(iface.monitor), old(iface.handle), old(iface.driverCalls))
      ensures attempted && !ReconnectOpens(old(params).value, env) ==>
        bus.queue == old(bus.queue) + [Event(ConnectionFailed, ErrorPayload(FailureMessage(old(params).value)))]
    {
      if params.None? || !autoReconnect {
        reconnectTask := Done;
        return false;
      }
      attempted := true;
      // the five-second wait happens here
      match params.value {
        case SerialParams(port) =>
          assert ReconnectTarget(params.value, env) == Some(SerialPort(port));
          var _ := ConnectSerial(port, env.open(SerialPort(port)), closeRaises);
        case TcpParams(host, port) =>
          assert ReconnectTarget(params.value, env) == Some(TcpHost(host, port));
          var _ := ConnectTcp(host, port, env.open(TcpHost(host, port)), closeRaises);
        case AutoParams =>
          assert ReconnectOpens(params.value, env) <==> Detected(env).Some?;
          var _ := AutoConnect(env, closeRaises);
      }
      reconnectTask := Done;
    }
  }
}

=== FILE: event_bus.dfy ===
/**
 * The publish/subscribe event bus of meshling/core/event_bus.py.
 *
 * Subscribers are callback identities (with a flag telling whether calling
 * them raises); invoking a callback is recorded as a `Delivery` in the bus's
 * `delivered` trace. The asyncio consumer task is modelled by its state and
 * by `ProcessEvents`, which runs the consumer loop over the events that are
 * queued when it is scheduled.
 */
module Events {
  import opened Values

  /** The `EventType` enumeration, member for member. */
  datatype EventType =
    | ConnectionEstablished | ConnectionLost | ConnectionFailed
    | PacketReceived | PacketSent | PacketFailed
    | DeviceStatusChanged | DeviceConfigChanged
    | NodeDiscovered | NodeUpdated | NodeLost
    | ChannelConfigChanged | ChannelAdded | ChannelRemoved
    | MessageSendRequested | MessageSendFailed | MessageReceived
    | ConfigLoaded | ConfigSaved | ConfigReset
    | UiError | TabActivated | TabDeactivated
    | AppShutdown

  /** An event: its type and its payload (the loop-clock timestamp is left out). */
  datatype Event = Event(kind: EventType, data: map<string, Value>)

  /** `Event(event_type, data)`: a missing payload becomes an empty dictionary. */
  function NewEvent(kind: EventType, data: Option<map<string, Value>>): (e: Event)
    ensures e.kind == kind
    ensures data.None? ==> e.data == map[]
    ensures data.Some? ==> e.data == data.value
  {
    Event(kind, if data.Some? then data.value else map[])
  }

  /** Re-creating an event from its own type and payload gives it back, and
      emitting without a payload is the same as emitting `{}`. */
  lemma NewEventRoundTrip(e: Event)
    ensures NewEvent(e.kind, Some(e.data)) == e
    ensures NewEvent(e.kind, None) == NewEvent(e.kind, Some(map[]))
  {
  }

  /** One invocation of a subscriber with an event. */
  datatype Delivery = Delivery(callback: Callback, event: Event)

  type Subscribers = map<EventType, seq<Callback>>

  /** `self._subscribers.get(event_type, [])`. */
  function SubscribersOf(subs: Subscribers, t: EventType): seq<Callback>
  {
    if t in subs then subs[t] else []
  }

  /** The subscriber table after `subscribe(t, cb)`. */
  function Subscribed(subs: Subscribers, t: EventType, cb: Callback): Subscribers
  {
    subs[t := SubscribersOf(subs, t) + [cb]]
  }

  /** The subscriber table after `unsubscribe(t, cb)`. */
  function Unsubscribed(subs: Subscribers, t: EventType, cb: Callback): Subscribers
  {
    if t in subs then subs[t := RemoveFirst(subs[t], cb)] else subs
  }

  /** Subscribing appends to the end of the type's list, keeps duplicates and
      leaves every other type's list alone. */
  lemma SubscribeAppends(subs: Subscribers, t: EventType, cb: Callback, u: EventType)
    ensures SubscribersOf(Subscribed(subs, t, cb), t) == SubscribersOf(subs, t) + [cb]
    ensures |SubscribersOf(Subscribed(subs, t, cb), t)| == |SubscribersOf(subs, t)| + 1
    ensures u != t ==> SubscribersOf(Subscribed(subs, t, cb), u) == SubscribersOf(subs, u)
  {
  }

  /** Unsubscribing removes only the first occurrence of the callback, and is
      a silent no-op when the type or the callback is absent. */
  lemma UnsubscribeRemovesFirst(subs: Subscribers, t: EventType, cb: Callback, u: EventType)
    ensures cb !in SubscribersOf(subs, t) ==> SubscribersOf(Unsubscribed(subs, t, cb), t) == SubscribersOf(subs, t)
    ensures cb in SubscribersOf(subs, t) ==>
      var s := SubscribersOf(subs, t);
      var k := FirstIndex(s, cb);
      SubscribersOf(Unsubscribed(subs, t, cb), t) == s[..k] + s[k + 1..]
      && (forall j :: 0 <= j < k ==> s[j] != cb)
    ensures u != t ==> SubscribersOf(Unsubscribed(subs, t, cb), u) == SubscribersOf(subs, u)
  {
    if cb in SubscribersOf(subs, t) {
      RemoveFirstSplits(subs[t], cb);
    }
  }

  /** The invocations made when one event is handled with this subscriber
      list: each subscriber once, in list order, whether or not an earlier one
      raised. */
  function Deliveries(callbacks: seq<Callback>, e: Event): (d: seq<Delivery>)
    ensures |d| == |callbacks|
    ensures forall i :: 0 <= i < |d| ==> d[i] == Delivery(callbacks[i], e)
  {
    if callbacks == [] then [] else [Delivery(callbacks[0], e)] + Deliveries(callbacks[1..], e)
  }

  /** The invocations made when the queued events are consumed in FIFO order. */
  function DispatchAll(events: seq<Event>, subs: Subscribers): seq<Delivery>
  {
    if events == [] then []
    else Deliveries(SubscribersOf(subs, events[0].kind), events[0]) + DispatchAll(events[1..], subs)
  }

  /** Consuming `q1 + q2` delivers everything for `q1` before anything for `q2`. */
  lemma {:induction false} DispatchAllAppend(q1: seq<Event>, q2: seq<Event>, subs: Subscribers)
    ensures DispatchAll(q1 + q2, subs) == DispatchAll(q1, subs) + DispatchAll(q2, subs)
    decreases |q1|
  {
    if q1 == [] {
      assert q1 + q2 == q2;
    } else {
      assert (q1 + q2)[1..] == q1[1..] + q2;
      DispatchAllAppend(q1[1..], q2, subs);
    }
  }

  /** Concatenation of deliveries regroups freely. */
  lemma Regroup(a: seq<Delivery>, b: seq<Delivery>, c: seq<Delivery>)
    ensures (a + b) + c == a + (b + c)
  {
  }

  /** An event whose type has no subscribers invokes nothing. */
  lemma NoSubscribersNoDelivery(subs: Subscribers, e: Event)
    requires e.kind !in subs || subs[e.kind] == []
    ensures DispatchAll([e], subs) == []
  {
  }

  /** The events one callback receives, in the order it receives them. */
  function ReceivedBy(ds: seq<Delivery>, c: Callback): seq<Event>
  {
    if ds == [] then []
    else
      var last := ds[|ds| - 1];
      ReceivedBy(ds[..|ds| - 1], c) + (if last.callback == c then [last.event] else [])
  }

  /** The events of `q` that `c` is subscribed to, in queue order. */
  function EventsFor(q: seq<Event>, subs: Subscribers, c: Callback): seq<Event>
  {
    if q == [] then []
    else (if c in SubscribersOf(subs, q[0].kind) then [q[0]] else []) + EventsFor(q[1..], subs, c)
  }

  lemma {:induction false} ReceivedByAppend(d1: seq<Delivery>, d2: seq<Delivery>, c: Callback)
    ensures ReceivedBy(d1 + d2, c) == ReceivedBy(d1, c) + ReceivedBy(d2, c)
    decreases |d2|
  {
    if d2 == [] {
      assert d1 + d2 == d1;
    } else {
      assert (d1 + d2)[..|d1 + d2| - 1] == d1 + d2[..|d2| - 1];
      ReceivedByAppend(d1, d2[..|d2| - 1], c);
    }
  }

  /** A callback that occurs at most once in a list receives the event once
      if it is in the list and not at all otherwise. */
  lemma {:induction false} ReceivedByDeliveries(cbs: seq<Callback>, e: Event, c: Callback)
    requires multiset(cbs)[c] <= 1
    ensures ReceivedBy(Deliveries(cbs, e), c) == if c in cbs then [e] else []
    decreases |cbs|
  {
    if cbs != [] {
      var init := cbs[..|cbs| - 1];
      var last := cbs[|cbs| - 1];
      assert cbs == init + [last];
      assert multiset(cbs) == multiset(init) + multiset{last};
      var d := Deliveries(cbs, e);
      assert d[..|d| - 1] == Deliveries(init, e);
      ReceivedByDeliveries(init, e, c);
      if last == c {
        assert c !in init;
      }
    }
  }

  /** FIFO delivery: a subscriber registered at most once per type receives
      exactly the queued events of the types it subscribed to, in queue order. */
  lemma {:induction false} DeliveredInQueueOrder(q: seq<Event>, subs: Subscribers, c: Callback)
    requires forall t :: multiset(SubscribersOf(subs, t))[c] <= 1
    ensures ReceivedBy(DispatchAll(q, subs), c) == EventsFor(q, subs, c)
    decreases |q|
  {
    if q != [] {
      var first := q[0];
      DeliveredInQueueOrder(q[1..], subs, c);
      ReceivedByAppend(Deliveries(SubscribersOf(subs, first.kind), first), DispatchAll(q[1..], subs), c);
      ReceivedByDeliveries(SubscribersOf(subs, first.kind), first, c);
    }
  }

  /** The subscriber table after unsubscribing each tracked pair in order. */
  function UnsubscribeEach(subs: Subscribers, pairs: seq<(EventType, Callback)>): Subscribers
    decreases |pairs|
  {
    if pairs == [] then subs
    else UnsubscribeEach(Unsubscribed(subs, pairs[0].0, pairs[0].1), pairs[1..])
  }

  /** The callbacks of the pairs of type `t`, counted with multiplicity. */
  function PairBag(pairs: seq<(EventType, Callback)>, t: EventType): multiset<Callback>
  {
    if pairs == [] then multiset{}
    else (if pairs[0].0 == t then multiset{pairs[0].1} else multiset{}) + PairBag(pairs[1..], t)
  }

  /** Every tracked pair is still subscribed, counted with multiplicity. */
  ghost predicate AllSubscribed(subs: Subscribers, pairs: seq<(EventType, Callback)>)
  {
    forall u :: PairBag(pairs, u) <= multiset(SubscribersOf(subs, u))
  }

  /** Unsubscribing pairs that are all subscribed removes exactly one copy of
      each from its type's list (counted with multiplicity): a tab that
      tracked its subscriptions takes out precisely what it put in. */
  lemma {:induction false} UnsubscribeEachRemoves(subs: Subscribers, pairs: seq<(EventType, Callback)>, t: EventType)
    requires AllSubscribed(subs, pairs)
    ensures multiset(SubscribersOf(UnsubscribeEach(subs, pairs), t)) == multiset(SubscribersOf(subs, t)) - PairBag(pairs, t)
    decreases |pairs|
  {
    if pairs != [] {
      var t0, c0 := pairs[0].0, pairs[0].1;
      var rest := pairs[1..];
      var subs' := Unsubscribed(subs, t0, c0);
      assert UnsubscribeEach(subs, pairs) == UnsubscribeEach(subs', rest);
      UnsubscribeOneKeeps(subs, pairs);
      UnsubscribeEachRemoves(subs', rest, t);
      UnsubscribeOneRemoves(subs, pairs, t);
    }
  }

  /** One step: removing the first pair takes one copy of it out of its own
      type's list and leaves every other list alone. */
  lemma UnsubscribeOneRemoves(subs: Subscribers, pairs: seq<(EventType, Callback)>, t: EventType)
    requires pairs != []
    requires AllSubscribed(subs, pairs)
    ensures multiset(SubscribersOf(Unsubscribed(subs, pairs[0].0, pairs[0].1), t))
      == multiset(SubscribersOf(subs, t)) - (if pairs[0].0 == t then multiset{pairs[0].1} else multiset{})
    ensures PairBag(pairs, t) == (if pairs[0].0 == t then multiset{pairs[0].1} else multiset{}) + PairBag(pairs[1..], t)
  {
    var t0, c0 := pairs[0].0, pairs[0].1;
    if t == t0 {
      var s0 := SubscribersOf(subs, t0);
      assert PairBag(pairs, t0)[c0] >= 1;
      assert multiset(s0)[c0] >= 1;
      RemoveFirstMultiset(s0, c0);
      assert SubscribersOf(Unsubscribed(subs, t0, c0), t) == RemoveFirst(s0, c0);
    }
  }

  /** One step: after removing the first pair the remaining pairs are still
      all subscribed. */
  lemma UnsubscribeOneKeeps(subs: Subscribers, pairs: seq<(EventType, Callback)>)
    requires pairs != []
    requires AllSubscribed(subs, pairs)
    ensures AllSubscribed(Unsubscribed(subs, pairs[0].0, pairs[0].1), pairs[1..])
  {
    forall u ensures PairBag(pairs[1..], u) <= multiset(SubscribersOf(Unsubscribed(subs, pairs[0].0, pairs[0].1), u)) {
      UnsubscribeOneRemoves(subs, pairs, u);
    }
  }

  /** The bus. `running` and `processor` are the `_running` flag and the
      state of `_processor_task`; `queue` is `_event_queue`. */
  class EventBus {
    var subscribers: Subscribers
    var running: bool
    var queue: seq<Event>
    var processor: TaskState
    var delivered: seq<Delivery>

    /** The consumer task runs exactly while the bus is running. */
    ghost predicate Valid()
      reads this
    {
      running <==> processor == Running
    }

    constructor ()
      ensures Valid()
      ensures subscribers == map[] && !running && queue == [] && processor == NoTask && delivered == []
    {
      subscribers := map[];
      running := false;
      queue := [];
      processor := NoTask;
      delivered := [];
    }

    /** `start`: a no-op while running, otherwise sets the flag and creates the consumer task. */
    method Start()
      requires Valid()
      modifies this`running, this`processor
      ensures Valid()
      ensures running
      ensures old(running) ==> processor == old(processor)
    {
      if running {
        return;
      }
      running := true;
      processor := Running;
    }

    /** `stop`: a no-op while stopped, otherwise clears the flag and cancels
        the consumer task. The pending queue is left as it is. */
    method Stop()
      requires Valid()
      modifies this`running, this`processor
      ensures Valid()
      ensures !running
      ensures processor == if old(running) then Cancelled else old(processor)
    {
      if !running {
        return;
      }
      running := false;
      if processor != NoTask {
        processor := Cancelled;
      }
    }

    method Subscribe(t: EventType, cb: Callback)
      modifies this`subscribers
      ensures subscribers == Subscribed(old(subscribers), t, cb)
    {
      if t !in subscribers {
        subscribers := subscribers[t := []];
      }
      subscribers := subscribers[t := subscribers[t] + [cb]];
    }

    method Unsubscribe(t: EventType, cb: Callback)
      modifies this`subscribers
      ensures subscribers == Unsubscribed(old(subscribers), t, cb)
    {
      if t in subscribers {
        // list.remove raises ValueError when cb is absent; the bus swallows it
        if cb in subscribers[t] {
          subscribers := subscribers[t := RemoveFirst(subscribers[t], cb)];
        }
      }
    }

    /** `emit`: exactly one new event at the tail of the queue. */
    method Emit(kind: EventType, data: Option<map<string, Value>>)
      modifies this`queue
      ensures queue == old(queue) + [NewEvent(kind, data)]
    {
      queue := queue + [NewEvent(kind, data)];
    }

    /** `_handle_event`: calls every subscriber of the event's type in list
        order; a callback that raises is logged and the loop goes on. */
    method HandleEvent(e: Event)
      modifies this`delivered
      ensures delivered == old(delivered) + Deliveries(SubscribersOf(subscribers, e.kind), e)
    {
      var callbacks := SubscribersOf(subscribers, e.kind);
      if callbacks == [] {
        return;
      }
      for i := 0 to |callbacks|
        invariant delivered == old(delivered) + Deliveries(callbacks[..i], e)
      {
        // the call happens whether or not callbacks[i].raises; an exception only reaches the log
        delivered := delivered + [Delivery(callbacks[i], e)];
        assert callbacks[..i + 1] == callbacks[..i] + [callbacks[i]];
      }
      assert callbacks[..|callbacks|] == callbacks;
    }

    /** `_process_events`, run until the queue is empty: while the bus is
        running, dequeues events in FIFO order and handles each one before
        taking the next. A stopped bus consumes nothing. */
    method ProcessEvents()
      modifies this`queue, this`delivered
      ensures old(running) ==> queue == [] && delivered == old(delivered) + DispatchAll(old(queue), subscribers)
      ensures !old(running) ==> queue == old(queue) && delivered == old(delivered)
    {
      if !running {
        return;
      }
      ghost var total := delivered + DispatchAll(queue, subscribers);
      while queue != []
        invariant delivered + DispatchAll(queue, subscribers) == total
        decreases |queue|
      {
        var e := queue[0];
        var rest := queue[1..];
        ghost var before := delivered;
        ghost var now := Deliveries(SubscribersOf(subscribers, e.kind), e);
        ghost var later := DispatchAll(rest, subscribers);
        assert before + (now + later) == total;
        queue := rest;
        HandleEvent(e);
        Regroup(before, now, later);
      }
    }
  }
}

=== FILE: tabs.dfy ===
/**
 * Tab bookkeeping of the terminal interface: a tab tracks the bus
 * subscriptions it made and its active / updated flags; the tab bar keeps
 * one button per tab; the container keeps the tabs, their order and the
 * active tab, and moves between them on key presses.
 */
module Tabs {
  import opened Values
  import opened Events

  // ---------------------------------------------------------------------
  // Tracked subscriptions

  /** The subscriber table after subscribing every pair in order. */
  function SubscribeEach(subs: Subscribers, pairs: seq<(EventType, Callback)>): Subscribers
    decreases |pairs|
  {
    if pairs == [] then subs
    else SubscribeEach(Subscribed(subs, pairs[0].0, pairs[0].1), pairs[1..])
  }

  /** Subscribing a list of pairs adds exactly those callbacks to each
      type's list, counted with multiplicity. */
  lemma {:induction false} SubscribeEachAdds(subs: Subscribers, pairs: seq<(EventType, Callback)>, t: EventType)
    ensures multiset(SubscribersOf(SubscribeEach(subs, pairs), t)) == multiset(SubscribersOf(subs, t)) + PairBag(pairs, t)
    decreases |pairs|
  {
    if pairs != [] {
      var t0, c0 := pairs[0].0, pairs[0].1;
      var subs' := Subscribed(subs, t0, c0);
      SubscribeEachAdds(subs', pairs[1..], t);
      SubscribeAppends(subs, t0, c0, t);
    }
  }

  /** A tab that subscribes a list of pairs and then unsubscribes the
      pairs it tracked leaves every type with the subscribers it had
      before, counted with multiplicity. */
  lemma TrackedRoundTrip(subs: Subscribers, pairs: seq<(EventType, Callback)>, t: EventType)
    ensures multiset(SubscribersOf(UnsubscribeEach(SubscribeEach(subs, pairs), pairs), t)) == multiset(SubscribersOf(subs, t))
  {
    var full := SubscribeEach(subs, pairs);
    forall u ensures PairBag(pairs, u) <= multiset(SubscribersOf(full, u)) {
      SubscribeEachAdds(subs, pairs, u);
    }
    SubscribeEachAdds(subs, pairs, t);
    UnsubscribeEachRemoves(full, pairs, t);
  }

  // ---------------------------------------------------------------------
  // Tabs

  /** A tab: its id and title, the bus it subscribes on, its reactive
      `is_active` / `has_updates` flags and the tracked subscriptions. */
  class Tab {
    const tabId: string
    const title: string
    const bus: EventBus
    var isActive: bool
    var hasUpdates: bool
    var subscriptions: seq<(EventType, Callback)>

    /** An active tab never shows the update indicator. */
    ghost predicate Valid()
      reads this
    {
      isActive ==> !hasUpdates
    }

    constructor (tabId: string, title: string, bus: EventBus)
      ensures Valid()
      ensures this.tabId == tabId && this.title == title && this.bus == bus
      ensures !isActive && !hasUpdates && subscriptions == []
    {
      this.tabId := tabId;
      this.title := title;
      this.bus := bus;
      isActive := false;
      hasUpdates := false;
      subscriptions := [];
    }

    /** Subscribes on the bus and remembers the pair. */
    method SubscribeToEvent(t: EventType, cb: Callback)
      modifies bus`subscribers, this`subscriptions
      ensures bus.subscribers == Subscribed(old(bus.subscribers), t, cb)
      ensures subscriptions == old(subscriptions) + [(t, cb)]
    {
      bus.Subscribe(t, cb);
      subscriptions := subscriptions + [(t, cb)];
    }

    /** Unsubscribes every tracked pair, in the order they were made, and
        forgets them. */
    method UnsubscribeAll()
      modifies bus`subscribers, this`subscriptions
      ensures bus.subscribers == UnsubscribeEach(old(bus.subscribers), old(subscriptions))
      ensures subscriptions == []
    {
      var pairs := subscriptions;
      for i := 0 to |pairs|
        invariant UnsubscribeEach(bus.subscribers, pairs[i..]) == UnsubscribeEach(old(bus.subscribers), pairs)
      {
        assert pairs[i..][1..] == pairs[i + 1..];
        bus.Unsubscribe(pairs[i].0, pairs[i].1);
      }
      assert pairs[|pairs|..] == [];
      subscriptions := [];
    }

    /** Becoming active clears the update indicator. */
    method OnTabActivated()
      modifies this`isActive, this`hasUpdates
      ensures Valid()
      ensures isActive && !hasUpdates
    {
      isActive := true;
      hasUpdates := false;
    }

    /** Becoming inactive keeps the update indicator as it was. */
    method OnTabDeactivated()
      requires Valid()
      modifies this`isActive
      ensures Valid()
      ensures !isActive && hasUpdates == old(hasUpdates)
    {
      isActive := false;
    }

    /** An inactive tab records that it has updates; an active one ignores
        the call. */
    method MarkUpdated()
      requires Valid()
      modifies this`hasUpdates
      ensures Valid()
      ensures hasUpdates == (old(hasUpdates) || !isActive)
    {
      if !isActive {
        hasUpdates := true;
      }
    }
  }

  // ---------------------------------------------------------------------
  // The tab bar

  /** The style classes a tab button carries: neither active nor inactive
      until the bar first marks it, and the update indicator. */
  datatype Look = Unmarked | Active | Inactive
  datatype Button = Button(look: Look, updated: bool)

  /** Every button marked active exactly when its id is the target. */
  function MarkActive(buttons: map<string, Button>, target: string): (r: map<string, Button>)
    ensures r.Keys == buttons.Keys
  {
    map tid | tid in buttons :: buttons[tid].(look := if tid == target then Active else Inactive)
  }

  /** After marking, exactly the target's button is active, every other
      button is inactive and no update indicator has changed. */
  lemma MarkActiveMarks(buttons: map<string, Button>, target: string, tid: string)
    requires tid in buttons
    ensures MarkActive(buttons, target)[tid].look == Active <==> tid == target
    ensures MarkActive(buttons, target)[tid].look == Inactive <==> tid != target
    ensures MarkActive(buttons, target)[tid].updated == buttons[tid].updated
  {
  }

  class TabBar {
    var buttons: map<string, Button>

    constructor ()
      ensures buttons == map[]
    {
      buttons := map[];
    }

    /** A new button replaces any earlier button registered for the id. */
    method AddTabButton(tabId: string)
      modifies this`buttons
      ensures buttons == old(buttons)[tabId := Button(Unmarked, false)]
    {
      buttons := buttons[tabId := Button(Unmarked, false)];
    }

    /** Visits every button and marks it active or inactive. */
    method SetActiveTab(target: string)
      modifies this`buttons
      ensures buttons == MarkActive(old(buttons), target)
    {
      var pending := buttons.Keys;
      while pending != {}
        invariant pending <= buttons.Keys == old(buttons).Keys
        invariant forall tid :: tid in buttons ==>
          buttons[tid] == if tid in pending then old(buttons)[tid] else MarkActive(old(buttons), target)[tid]
        decreases pending
      {
        var tid :| tid in pending;
        buttons := buttons[tid := buttons[tid].(look := if tid == target then Active else Inactive)];
        pending := pending - {tid};
      }
    }

    /** Sets or clears the update indicator of a known button. */
    method SetTabUpdates(tabId: string, hasUpdates: bool)
      modifies this`buttons
      ensures buttons == if tabId in old(buttons) then old(buttons)[tabId := old(buttons)[tabId].(updated := hasUpdates)] else old(buttons)
    {
      if tabId in buttons {
        buttons := buttons[tabId := buttons[tabId].(updated := hasUpdates)];
      }
    }
  }

  // ---------------------------------------------------------------------
  // Cyclic navigation over the tab order

  /** The tab after the active one, wrapping around; the first tab when the
      active id is not in the order; nothing when there are no tabs. */
  function NextTabId(order: seq<string>, active: string): (r: Option<string>)
    ensures r.None? <==> order == []
    ensures r.Some? ==> r.value in order
    ensures r.Some? && active !in order ==> r.value == order[0]
  {
    if order == [] then None
    else if active in order then Some(order[(FirstIndex(order, active) + 1) % |order|])
    else Some(order[0])
  }

  /** The tab before the active one, wrapping around with a non-negative
      remainder; the last tab when the active id is not in the order. */
  function PreviousTabId(order: seq<string>, active: string): (r: Option<string>)
    ensures r.None? <==> order == []
    ensures r.Some? ==> r.value in order
    ensures r.Some? && active !in order ==> r.value == order[|order| - 1]
  {
    if order == [] then None
    else if active in order then Some(order[(FirstIndex(order, active) - 1) % |order|])
    else Some(order[|order| - 1])
  }

  /** No id occurs twice in the order. */
  predicate Distinct(order: seq<string>)
  {
    forall i, j :: 0 <= i < j < |order| ==> order[i] != order[j]
  }

  /** In a list without repeats, the position of the k-th element is k. */
  lemma IndexOfDistinct(order: seq<string>, k: int)
    requires Distinct(order) && 0 <= k < |order|
    ensures FirstIndex(order, order[k]) == k
  {
  }

  /** The position after `i` in a cycle of length `n`. */
  function Succ(i: int, n: int): int
  {
    if i + 1 < n then i + 1 else 0
  }

  /** The position before `i` in a cycle of length `n`. */
  function Pred(i: int, n: int): int
  {
    if i == 0 then n - 1 else i - 1
  }

  /** Stepping forward from a listed tab takes the tab after its first
      occurrence, the first tab after the last. */
  lemma NextStep(order: seq<string>, active: string)
    requires active in order
    ensures NextTabId(order, active) == Some(order[Succ(FirstIndex(order, active), |order|)])
  {
    var i := FirstIndex(order, active);
    SuccMod(i, |order|);
    assert (i + 1) % |order| == Succ(i, |order|);
  }

  /** Stepping backward from a listed tab takes the tab before its first
      occurrence, the last tab before the first. */
  lemma PreviousStep(order: seq<string>, active: string)
    requires active in order
    ensures PreviousTabId(order, active) == Some(order[Pred(FirstIndex(order, active), |order|)])
  {
    var i := FirstIndex(order, active);
    PredMod(i, |order|);
    assert (i - 1) % |order| == Pred(i, |order|);
  }

  /** The previous tab of the first tab is the last one. */
  lemma PreviousOfFirstIsLast(order: seq<string>)
    requires order != []
    ensures PreviousTabId(order, order[0]) == Some(order[|order| - 1])
  {
    PreviousStep(order, order[0]);
  }

  /** With distinct ids the next tab of the last tab is the first one. */
  lemma NextOfLastIsFirst(order: seq<string>)
    requires order != [] && Distinct(order)
    ensures NextTabId(order, order[|order| - 1]) == Some(order[0])
  {
    IndexOfDistinct(order, |order| - 1);
    NextStep(order, order[|order| - 1]);
  }

  /** With distinct ids, stepping forward moves the position by one,
      wrapping around from the last position to the first. */
  lemma NextIndex(order: seq<string>, active: string)
    requires Distinct(order) && active in order
    ensures NextTabId(order, active).Some?
    ensures FirstIndex(order, NextTabId(order, active).value) == Succ(FirstIndex(order, active), |order|)
  {
    NextStep(order, active);
    IndexOfDistinct(order, Succ(FirstIndex(order, active), |order|));
  }

  /** With distinct ids, stepping backward moves the position back by one,
      wrapping around from the first position to the last. */
  lemma PreviousIndex(order: seq<string>, active: string)
    requires Distinct(order) && active in order
    ensures PreviousTabId(order, active).Some?
    ensures FirstIndex(order, PreviousTabId(order, active).value) == Pred(FirstIndex(order, active), |order|)
  {
    PreviousStep(order, active);
    IndexOfDistinct(order, Pred(FirstIndex(order, active), |order|));
  }

  /** With distinct ids and the active tab present, going forward and then
      back returns to the active tab. */
  lemma PreviousOfNext(order: seq<string>, active: string)
    requires Distinct(order) && active in order
    ensures PreviousTabId(order, NextTabId(order, active).value) == Some(active)
  {
    NextIndex(order, active);
    var next := NextTabId(order, active).value;
    PreviousStep(order, next);
  }

  /** With distinct ids and the active tab present, going back and then
      forward returns to the active tab. */
  lemma NextOfPrevious(order: seq<string>, active: string)
    requires Distinct(order) && active in order
    ensures NextTabId(order, PreviousTabId(order, active).value) == Some(active)
  {
    PreviousIndex(order, active);
    var prev := PreviousTabId(order, active).value;
    NextStep(order, prev);
  }

  /** With distinct ids, the tab after the one at position `j` is the one
      at position `j + 1`, or the first tab after the last. */
  lemma NextAt(order: seq<string>, j: int)
    requires Distinct(order) && 0 <= j < |order|
    ensures NextTabId(order, order[j]) == Some(order[if j + 1 < |order| then j + 1 else 0])
  {
    IndexOfDistinct(order, j);
    NextStep(order, order[j]);
  }

  /** One step forward modulo `n`, without the division. */
  lemma SuccMod(j: int, n: int)
    requires 0 <= j < n
    ensures (j + 1) % n == if j + 1 < n then j + 1 else 0
  {
  }

  /** One step back modulo `n` (a non-negative remainder), without the division. */
  lemma PredMod(j: int, n: int)
    requires 0 <= j < n
    ensures (j - 1) % n == if j == 0 then n - 1 else j - 1
  {
  }

  // ---------------------------------------------------------------------
  // Keyboard shortcuts

  /** The tab a key press switches to: ctrl+tab and ctrl+shift+tab follow
      the cyclic order and skip an empty id; ctrl+<digit d> picks the d-th
      tab when there is one. */
  function KeyTarget(key: string, order: seq<string>, active: string): (r: Option<string>)
    ensures r.Some? ==> r.value in order
  {
    if key == "ctrl+tab" then
      var next := NextTabId(order, active);
      if next.Some? && next.value != "" then next else None
    else if key == "ctrl+shift+tab" then
      var prev := PreviousTabId(order, active);
      if prev.Some? && prev.value != "" then prev else None
    else if StartsWith(key, "ctrl+") && IsDigitChar(key[|key| - 1]) then
      var num := DigitValue(key[|key| - 1]) - 1;
      if 0 <= num < |order| then Some(order[num]) else None
    else None
  }

  /** ctrl+d selects the d-th tab when 1 <= d <= the number of tabs and
      nothing otherwise; in particular ctrl+0 does nothing. */
  lemma DigitKeyTarget(order: seq<string>, active: string, d: nat)
    requires d < 10
    ensures KeyTarget("ctrl+" + [DigitChar(d)], order, active)
      == if 1 <= d <= |order| then Some(order[d - 1]) else None
  {
    var key := "ctrl+" + [DigitChar(d)];
    assert |key| == 6;
    assert key[..5] == "ctrl+";
    assert DigitValue(key[5]) == d;
  }

  // ---------------------------------------------------------------------
  // The container

  class TabContainer {
    const bar: TabBar
    var tabs: map<string, Tab>
    var order: seq<string>
    /** The reactive `active_tab`. */
    var activeTab: string
    /** The content switcher's current child. */
    var current: string

    /** The order lists exactly the registered ids, every tab is keyed by
        its own id, the bar has one button per tab and no active tab shows
        the update indicator. */
    ghost predicate Valid()
      reads this, bar, tabs.Values
    {
      && (forall id :: id in tabs <==> id in order)
      && (forall id :: id in tabs ==> tabs[id].tabId == id)
      && bar.buttons.Keys == tabs.Keys
      && (forall id :: id in tabs ==> (tabs[id].isActive ==> !tabs[id].hasUpdates))
    }

    /** An empty container whose active tab and content start at
        "channels". */
    constructor ()
      ensures Valid()
      ensures fresh(bar)
      ensures tabs == map[] && order == [] && activeTab == "channels" && current == "channels"
    {
      bar := new TabBar();
      tabs := map[];
      order := [];
      activeTab := "channels";
      current := "channels";
    }

    /** Registers the tab under its id, appends the id to the order and
        adds its button. */
    method AddTab(tab: Tab)
      requires Valid() && tab.Valid()
      modifies this`tabs, this`order, bar`buttons
      ensures Valid()
      ensures tabs == old(tabs)[tab.tabId := tab]
      ensures order == old(order) + [tab.tabId]
      ensures bar.buttons == old(bar.buttons)[tab.tabId := Button(Unmarked, false)]
    {
      tabs := tabs[tab.tabId := tab];
      order := order + [tab.tabId];
      bar.AddTabButton(tab.tabId);
    }

    /** An unknown id changes nothing. A known id deactivates the current
        tab, shows the new content, marks the bar and activates the new
        tab. */
    method SwitchToTab(id: string)
      requires Valid()
      modifies this`activeTab, this`current, bar`buttons, Touched(id)
      ensures Valid()
      ensures tabs == old(tabs) && order == old(order)
      ensures id !in tabs ==> activeTab == old(activeTab) && current == old(current) && bar.buttons == old(bar.buttons)
      ensures id !in tabs ==> forall k :: k in tabs ==> tabs[k].isActive == old(tabs[k].isActive) && tabs[k].hasUpdates == old(tabs[k].hasUpdates)
      ensures id in tabs ==> activeTab == id && current == id && bar.buttons == MarkActive(old(bar.buttons), id)
      ensures id in tabs ==> tabs[id].isActive && !tabs[id].hasUpdates
      ensures id in tabs && old(activeTab) in tabs && old(activeTab) != id ==>
        (!tabs[old(activeTab)].isActive && tabs[old(activeTab)].hasUpdates == old(tabs[activeTab].hasUpdates))
      ensures forall k :: k in tabs && k != id && k != old(activeTab) ==>
        (tabs[k].isActive == old(tabs[k].isActive) && tabs[k].hasUpdates == old(tabs[k].hasUpdates))
      ensures forall k :: k in tabs ==> tabs[k].subscriptions == old(tabs[k].subscriptions)
    {
      if id !in tabs {
        return;
      }
      if activeTab in tabs {
        tabs[activeTab].OnTabDeactivated();
      }
      current := id;
      bar.SetActiveTab(id);
      activeTab := id;
      tabs[id].OnTabActivated();
    }

    /** The tabs a switch to `id` may change: the active one and the target. */
    function Touched(id: string): set<Tab>
      reads this
    {
      (if activeTab in tabs then {tabs[activeTab]} else {}) + (if id in tabs then {tabs[id]} else {})
    }

    /** Marks a known tab as updated and sets its button's indicator, even
        when the tab is active and ignores the mark. */
    method MarkTabUpdated(id: string)
      requires Valid()
      modifies bar`buttons, tabs.Values
      ensures Valid()
      ensures id in tabs ==> tabs[id].hasUpdates == (old(tabs[id].hasUpdates) || !tabs[id].isActive)
      ensures id in tabs ==> bar.buttons == old(bar.buttons)[id := old(bar.buttons)[id].(updated := true)]
      ensures id !in tabs ==> bar.buttons == old(bar.buttons)
      ensures forall k :: k in tabs ==> tabs[k].isActive == old(tabs[k].isActive) && tabs[k].subscriptions == old(tabs[k].subscriptions)
      ensures forall k :: k in tabs && k != id ==> tabs[k].hasUpdates == old(tabs[k].hasUpdates)
    {
      if id in tabs {
        tabs[id].MarkUpdated();
        bar.SetTabUpdates(id, true);
      }
    }

    /** Handles a key press: switches to the key's target, if any, and
        reports whether the key was consumed. */
    method OnKey(key: string) returns (handled: bool)
      requires Valid()
      modifies this`activeTab, this`current, bar`buttons, tabs.Values
      ensures Valid()
      ensures handled <==> KeyTarget(key, order, old(activeTab)).Some?
      ensures !handled ==> activeTab == old(activeTab) && current == old(current) && bar.buttons == old(bar.buttons)
      ensures !handled ==> forall k :: k in tabs ==> tabs[k].isActive == old(tabs[k].isActive) && tabs[k].hasUpdates == old(tabs[k].hasUpdates)
      ensures handled ==> activeTab == KeyTarget(key, order, old(activeTab)).value && current == activeTab
      ensures handled ==> tabs[activeTab].isActive && !tabs[activeTab].hasUpdates
      ensures handled ==> bar.buttons == MarkActive(old(bar.buttons), activeTab)
      ensures handled && old(activeTab) in tabs && old(activeTab) != activeTab ==>
        (!tabs[old(activeTab)].isActive && tabs[old(activeTab)].hasUpdates == old(tabs[activeTab].hasUpdates))
      ensures forall k :: k in tabs && k != activeTab && k != old(activeTab) ==>
        (tabs[k].isActive == old(tabs[k].isActive) && tabs[k].hasUpdates == old(tabs[k].hasUpdates))
      ensures forall k :: k in tabs ==> tabs[k].subscriptions == old(tabs[k].subscriptions)
    {
      var target: Option<string> := None;
      if key == "ctrl+tab" {
        var next := NextTabId(order, activeTab);
        if next.Some? && next.value != "" {
          target := next;
        }
      } else if key == "ctrl+shift+tab" {
        var prev := PreviousTabId(order, activeTab);
        if prev.Some? && prev.value != "" {
          target := prev;
        }
      } else if StartsWith(key, "ctrl+") && IsDigitChar(key[|key| - 1]) {
        var num := DigitValue(key[|key| - 1]) - 1;
        if 0 <= num < |order| {
          target := Some(order[num]);
        }
      }
      assert target == KeyTarget(key, order, activeTab);
      handled := target.Some?;
      if handled {
        SwitchToTab(target.value);
      }
    }
  }
}

=== FILE: transport.dfy ===
/**
 * The device transports of meshling/interfaces: the status holder shared by
 * both variants (base_interface.py) and the TCP and serial transports
 * (tcp_interface.py, serial_interface.py).
 *
 * The two variants differ only in what they are opened on and in the device
 * information they record, so one `Transport` class carries a
 * `TransportKind`. The meshtastic driver is an oracle: opening it yields an
 * `OpenOutcome`, and every call made on it is recorded in `driverCalls`.
 * Callbacks are identities; calling one is recorded in `notified` (status
 * changes) or `forwarded` (packets), whether or not the callback raises.
 */
module Transports {
  import opened Values

  datatype ConnectionStatus = Disconnected | Connecting | Connected | Failed | Reconnecting

  /** The enumeration's `.value` strings. */
  function StatusValue(s: ConnectionStatus): string
  {
    match s
    case Disconnected => "disconnected"
    case Connecting => "connecting"
    case Connected => "connected"
    case Failed => "failed"
    case Reconnecting => "reconnecting"
  }

  /** Distinct statuses have distinct `.value` strings. */
  lemma StatusValueInjective(a: ConnectionStatus, b: ConnectionStatus)
    requires StatusValue(a) == StatusValue(b)
    ensures a == b
  {
  }

  const DefaultTcpPort: int := 4403

  /** What a transport is opened on: a serial device path, or a host and port. */
  datatype TransportKind = SerialPort(path: string) | TcpHost(host: string, port: int)

  /** An open meshtastic driver instance; `driver` is the object itself, read
      only through attribute access (`myInfo`, `nodes`). */
  datatype Session = Session(id: nat, driver: Value)

  /** What constructing the meshtastic driver does: it returns an instance,
      returns nothing, or raises. */
  datatype OpenOutcome = Opened(session: Session) | OpenedNothing | OpenRaised(error: string)

  /** Calls made on the meshtastic driver. */
  datatype DriverCall =
    | Open(target: TransportKind)
    | Close(session: Session)
    | SendText(session: Session, text: string, destination: Option<string>)

  /** One call of the connection callback. */
  datatype Notification = Notification(callback: Callback, status: ConnectionStatus)

  /** One call of the packet callback. */
  datatype PacketDelivery = PacketDelivery(callback: Callback, packet: map<string, Value>)

  /** How a coroutine ended: with a value, or with an exception and its message. */
  datatype Completion<T> = Returned(value: T) | Raised(message: string)

  // ---------------------------------------------------------------------
  // Status notifications

  /** The callback calls made by `_update_status(next)` in status `current`. */
  function Notify(current: ConnectionStatus, cb: Option<Callback>, next: ConnectionStatus): seq<Notification>
  {
    if current != next && cb.Some? then [Notification(cb.value, next)] else []
  }

  /** The callback calls made by a sequence of `_update_status` calls. */
  function Notifications(current: ConnectionStatus, cb: Option<Callback>, updates: seq<ConnectionStatus>): seq<Notification>
    decreases |updates|
  {
    if updates == [] then []
    else Notify(current, cb, updates[0]) + Notifications(updates[0], cb, updates[1..])
  }

  /** The status after a sequence of updates. */
  function FinalStatus(current: ConnectionStatus, updates: seq<ConnectionStatus>): ConnectionStatus
  {
    if updates == [] then current else updates[|updates| - 1]
  }

  /** No status is notified twice in a row. */
  predicate NoRepeats(log: seq<Notification>)
  {
    forall i, j :: 0 <= i < |log| && 0 <= j < |log| && j == i + 1 ==> log[i].status != log[j].status
  }

  /** Updating to the current status fires nothing; updating to another one
      fires the callback, if set, exactly once with the new status. */
  lemma NotifyOnChangeOnly(current: ConnectionStatus, cb: Option<Callback>, next: ConnectionStatus)
    ensures current == next ==> Notify(current, cb, next) == []
    ensures current != next && cb.Some? ==> Notify(current, cb, next) == [Notification(cb.value, next)]
    ensures cb.None? ==> Notify(current, cb, next) == []
  {
  }

  /** The log is empty or its last notification is of status `s`. */
  predicate EndsWith(log: seq<Notification>, s: ConnectionStatus)
  {
    log != [] ==> log[|log| - 1].status == s
  }

  /** Whatever updates happen, a notification log that ends with the current
      status never gets the same status twice in a row, and ends with the
      final status. (Without a callback nothing is notified at all; see
      `NoCallbackNoNotifications`.) */
  lemma {:induction false} NotificationsNeverRepeat(log: seq<Notification>, current: ConnectionStatus, cb: Option<Callback>, updates: seq<ConnectionStatus>)
    requires NoRepeats(log) && EndsWith(log, current)
    requires cb.Some?
    ensures NoRepeats(log + Notifications(current, cb, updates))
    ensures EndsWith(log + Notifications(current, cb, updates), FinalStatus(current, updates))
    decreases |updates|
  {
    if updates == [] {
      assert log + Notifications(current, cb, updates) == log;
    } else {
      NotifyStep(log, current, cb, updates[0]);
      NotificationsNeverRepeat(log + Notify(current, cb, updates[0]), updates[0], cb, updates[1..]);
      UnfoldNotifications(log, current, cb, updates);
      FinalStatusStep(current, updates);
    }
  }

  lemma FinalStatusStep(current: ConnectionStatus, updates: seq<ConnectionStatus>)
    requires updates != []
    ensures FinalStatus(updates[0], updates[1..]) == FinalStatus(current, updates)
  {
  }

  lemma UnfoldNotifications(log: seq<Notification>, current: ConnectionStatus, cb: Option<Callback>, updates: seq<ConnectionStatus>)
    requires updates != []
    ensures log + Notifications(current, cb, updates)
         == (log + Notify(current, cb, updates[0])) + Notifications(updates[0], cb, updates[1..])
  {
    var a, b := Notify(current, cb, updates[0]), Notifications(updates[0], cb, updates[1..]);
    assert Notifications(current, cb, updates) == a + b;
    assert log + (a + b) == (log + a) + b;
  }

  /** One update keeps the log free of repeats and, with a callback, makes it
      end with the new status. */
  lemma NotifyStep(log: seq<Notification>, current: ConnectionStatus, cb: Option<Callback>, next: ConnectionStatus)
    requires NoRepeats(log) && EndsWith(log, current)
    requires cb.Some?
    ensures NoRepeats(log + Notify(current, cb, next))
    ensures EndsWith(log + Notify(current, cb, next), next)
  {
  }

  /** Without a connection callback nothing is notified. */
  lemma {:induction false} NoCallbackNoNotifications(current: ConnectionStatus, updates: seq<ConnectionStatus>)
    ensures Notifications(current, None, updates) == []
    decreases |updates|
  {
    if updates != [] {
      NoCallbackNoNotifications(updates[0], updates[1..]);
    }
  }

  // ---------------------------------------------------------------------
  // Received packets

  /** The decoded part of a driver packet as read; `text` is `Null` when the
      payload has no text attribute. */
  datatype RawDecoded = RawDecoded(portnum: Value, payload: Value, text: Value)

  /** The fields of a driver packet as read; `decoded` is `None` when the
      packet has no decoded payload or it is falsy. */
  datatype RawPacket = RawPacket(
    fromNode: Value, toNode: Value, id: Value,
    rxTime: Value, rxSnr: Value, rxRssi: Value, hopLimit: Value,
    decoded: Option<RawDecoded>)

  /** The keys of every packet dictionary handed to the packet callback. */
  const PacketKeys: set<string> := {"from", "to", "id", "rx_time", "rx_snr", "rx_rssi", "hop_limit", "decoded"}

  function DecodedDict(d: RawDecoded): map<string, Value>
  {
    var base := map["portnum" := d.portnum, "payload" := d.payload];
    if TruthyValue(d.text) then base["text" := d.text] else base
  }

  /** `_on_receive`'s translation of a driver packet into a dictionary. */
  function PacketDict(p: RawPacket): map<string, Value>
  {
    map[
      "from" := p.fromNode, "to" := p.toNode, "id" := p.id,
      "rx_time" := p.rxTime, "rx_snr" := p.rxSnr, "rx_rssi" := p.rxRssi,
      "hop_limit" := p.hopLimit,
      "decoded" := Dict(if p.decoded.Some? then DecodedDict(p.decoded.value) else map[])]
  }

  /** The packet dictionary has a fixed key set and carries the header fields
      over unchanged; `decoded` is empty exactly when the packet is not
      decoded, and holds `text` exactly when the packet carries non-empty text. */
  lemma PacketDictShape(p: RawPacket)
    ensures PacketDict(p).Keys == PacketKeys
    ensures PacketDict(p)["from"] == p.fromNode && PacketDict(p)["to"] == p.toNode && PacketDict(p)["id"] == p.id
    ensures PacketDict(p)["rx_time"] == p.rxTime && PacketDict(p)["rx_snr"] == p.rxSnr
    ensures PacketDict(p)["rx_rssi"] == p.rxRssi && PacketDict(p)["hop_limit"] == p.hopLimit
    ensures PacketDict(p)["decoded"].Dict?
    ensures PacketDict(p)["decoded"].entries == map[] <==> p.decoded.None?
    ensures p.decoded.Some? ==>
      var d := PacketDict(p)["decoded"].entries;
      && d["portnum"] == p.decoded.value.portnum
      && d["payload"] == p.decoded.value.payload
      && ("text" in d <==> TruthyValue(p.decoded.value.text))
      && ("text" in d ==> d["text"] == p.decoded.value.text)
  {
    if p.decoded.Some? {
      assert "portnum" in PacketDict(p)["decoded"].entries;
    }
  }

  /** Python truthiness of a value read from a driver object; an object is
      always true. */
  predicate TruthyValue(v: Value)
  {
    match v
    case Null => false
    case Bool(b) => b
    case Int(i) => i != 0
    case Str(t) => t != ""
    case Dict(entries) => entries != map[]
    case Obj(_) => true
  }

  /** The header attributes `_on_receive` reads, the sender under `fromName`. */
  function HeaderNames(fromName: string): set<string>
  {
    {fromName, "to", "id", "rx_time", "rx_snr", "rx_rssi", "hop_limit"}
  }

  /** The attribute reads of `_on_receive` on a driver packet object: the
      seven header fields, then `decoded` when it is present and truthy, its
      `portnum` and `payload`, and its `text` when present and truthy. A read
      of a missing attribute raises AttributeError, and the result is then
      `None`. */
  function ReadPacket(packet: Value, fromName: string): (r: Option<RawPacket>)
    ensures r.Some? <==>
      (&& packet.Obj? && HeaderNames(fromName) <= packet.attrs.Keys
       && ("decoded" in packet.attrs && TruthyValue(packet.attrs["decoded"]) ==>
             packet.attrs["decoded"].Obj? && {"portnum", "payload"} <= packet.attrs["decoded"].attrs.Keys))
    ensures r.Some? ==> r.value.fromNode == packet.attrs[fromName] && r.value.toNode == packet.attrs["to"]
    ensures r.Some? ==> (r.value.decoded.Some? <==> "decoded" in packet.attrs && TruthyValue(packet.attrs["decoded"]))
  {
    if !packet.Obj? then None
    else
      var a := packet.attrs;
      if !(fromName in a && "to" in a && "id" in a && "rx_time" in a && "rx_snr" in a && "rx_rssi" in a && "hop_limit" in a) then None
      else if "decoded" !in a || !TruthyValue(a["decoded"]) then
        Some(RawPacket(a[fromName], a["to"], a["id"], a["rx_time"], a["rx_snr"], a["rx_rssi"], a["hop_limit"], None))
      else
        var d := a["decoded"];
        if !(d.Obj? && "portnum" in d.attrs && "payload" in d.attrs) then None
        else
          var text := if "text" in d.attrs then d.attrs["text"] else Null;
          Some(RawPacket(a[fromName], a["to"], a["id"], a["rx_time"], a["rx_snr"], a["rx_rssi"], a["hop_limit"],
            Some(RawDecoded(d.attrs["portnum"], d.attrs["payload"], text))))
  }

  /** The header fields of a protobuf `MeshPacket`, under their protobuf
      names. The sender's field is `from`, a Python keyword, so it is reached
      only through `getattr(packet, 'from')`; the message has no `from_`. */
  const MeshPacketFields: set<string> := {"from", "to", "id", "rx_time", "rx_snr", "rx_rssi", "hop_limit", "decoded"}

  /** A `MeshPacket` as the driver hands it over: every header field present,
      no `from_` attribute, and `decoded` a `Data` message with `portnum` and
      `payload`. */
  predicate IsMeshPacket(packet: Value)
  {
    && packet.Obj?
    && MeshPacketFields <= packet.attrs.Keys
    && "from_" !in packet.attrs
    && packet.attrs["decoded"].Obj?
    && {"portnum", "payload"} <= packet.attrs["decoded"].attrs.Keys
  }

  /** As written, `_on_receive` reads the sender as `packet.from_`. On any
      `MeshPacket` that read raises, so every received packet takes the
      `except` branch and is dropped: the callback is never called. */
  lemma ReceiveAsWrittenDropsMeshPackets(packet: Value)
    requires IsMeshPacket(packet)
    ensures ReadPacket(packet, "from_").None?
  {
  }

  /** Reading the sender as `from` translates every `MeshPacket`, carrying its
      sender and its decoded payload over. */
  lemma ReceiveReadsMeshPackets(packet: Value)
    requires IsMeshPacket(packet)
    ensures ReadPacket(packet, "from").Some?
    ensures var r := ReadPacket(packet, "from").value;
      && PacketDict(r)["from"] == packet.attrs["from"]
      && PacketDict(r)["decoded"].entries["portnum"] == packet.attrs["decoded"].attrs["portnum"]
  {
    var r := ReadPacket(packet, "from").value;
    PacketDictShape(r);
  }

  // ---------------------------------------------------------------------
  // Device and node information

  const UnknownValue: Value := Str("Unknown")

  /** `_update_device_info`'s dictionary for a driver object. */
  function DeviceInfoFor(kind: TransportKind, driver: Value): map<string, Value>
  {
    var myInfo := GetAttr(driver, "myInfo", Dict(map[]));
    var common := map[
      "my_info" := myInfo,
      "firmware_version" := GetAttr(myInfo, "firmware_version", UnknownValue),
      "hw_model" := GetAttr(myInfo, "hw_model", UnknownValue)];
    match kind
    case TcpHost(host, port) => common["host" := Str(host)]["port" := Int(port)]["type" := Str("tcp")]
    case SerialPort(path) => common["port" := Str(path)]["type" := Str("serial")]
  }

  /** The device information names the transport's type and address, and
      reports "Unknown" for a firmware version or hardware model the driver
      does not expose. */
  lemma DeviceInfoShape(kind: TransportKind, driver: Value)
    ensures var info := DeviceInfoFor(kind, driver);
      && info.Keys == (if kind.TcpHost? then {"host", "port", "type", "my_info", "firmware_version", "hw_model"}
                       else {"port", "type", "my_info", "firmware_version", "hw_model"})
      && info["type"] == Str(if kind.TcpHost? then "tcp" else "serial")
      && (kind.TcpHost? ==> info["host"] == Str(kind.host) && info["port"] == Int(kind.port))
      && (kind.SerialPort? ==> info["port"] == Str(kind.path))
      && info["my_info"] == GetAttr(driver, "myInfo", Dict(map[]))
      && (!info["my_info"].Obj? || "firmware_version" !in info["my_info"].attrs ==> info["firmware_version"] == Str("Unknown"))
      && (!info["my_info"].Obj? || "hw_model" !in info["my_info"].attrs ==> info["hw_model"] == Str("Unknown"))
  {
  }

  /** The normalised entry `get_node_info` builds for one node. */
  function NodeEntry(key: string, node: Value): Value
  {
    Dict(map[
      "id" := Str(key),
      "user" := GetAttr(node, "user", Dict(map[])),
      "position" := GetAttr(node, "position", Dict(map[])),
      "lastHeard" := GetAttr(node, "lastHeard", Int(0))])
  }

  /** Each entry carries its key as `id` and falls back to an empty user, an
      empty position and `lastHeard` 0 for attributes the node lacks. */
  lemma NodeEntryShape(key: string, node: Value)
    ensures NodeEntry(key, node).Dict?
    ensures NodeEntry(key, node).entries.Keys == {"id", "user", "position", "lastHeard"}
    ensures NodeEntry(key, node).entries["id"] == Str(key)
    ensures node.Obj? && "user" in node.attrs ==> NodeEntry(key, node).entries["user"] == node.attrs["user"]
    ensures !(node.Obj? && "user" in node.attrs) ==> NodeEntry(key, node).entries["user"] == Dict(map[])
    ensures !(node.Obj? && "position" in node.attrs) ==> NodeEntry(key, node).entries["position"] == Dict(map[])
    ensures !(node.Obj? && "lastHeard" in node.attrs) ==> NodeEntry(key, node).entries["lastHeard"] == Int(0)
  {
  }

  /** What `get_node_info` returns for a driver handle. */
  function NodeInfoFor(handle: Option<Session>): map<string, Value>
  {
    if handle.None? then map[]
    else
      var nodes := GetAttr(handle.value.driver, "nodes", Dict(map[]));
      if !nodes.Dict? then map[]
      else NodeTable(nodes.entries)
  }

  /** One normalised entry per node, keyed by the node's key. */
  function NodeTable(nodes: map<string, Value>): map<string, Value>
  {
    map k | k in nodes :: NodeEntry(k, nodes[k])
  }

  /** The loop of `get_node_info` over `nodes.items()`. */
  method CollectNodes(nodes: map<string, Value>) returns (info: map<string, Value>)
    ensures info == NodeTable(nodes)
  {
    info := map[];
    var pending := nodes.Keys;
    while pending != {}
      invariant pending <= nodes.Keys
      invariant info.Keys == nodes.Keys - pending
      invariant forall k :: k in info ==> info[k] == NodeEntry(k, nodes[k])
      decreases pending
    {
      var k :| k in pending;
      info := info[k := NodeEntry(k, nodes[k])];
      pending := pending - {k};
    }
  }

  /** `{}` without a handle or when the driver's `nodes` is not a dictionary;
      otherwise exactly one normalised entry per node, keyed by the node's id. */
  lemma NodeInfoShape(handle: Option<Session>)
    ensures handle.None? ==> NodeInfoFor(handle) == map[]
    ensures handle.Some? && !GetAttr(handle.value.driver, "nodes", Dict(map[])).Dict? ==> NodeInfoFor(handle) == map[]
    ensures handle.Some? && GetAttr(handle.value.driver, "nodes", Dict(map[])).Dict? ==>
      var nodes := GetAttr(handle.value.driver, "nodes", Dict(map[])).entries;
      && NodeInfoFor(handle).Keys == nodes.Keys
      && forall k :: k in nodes ==> NodeInfoFor(handle)[k] == NodeEntry(k, nodes[k]) && NodeInfoFor(handle)[k].entries["id"] == Str(k)
  {
  }

  /** The message a serial transport's `await` of `None` raises. */
  const AwaitNoneError: string := "object NoneType can't be used in 'await' expression"

  /** One transport: the `BaseInterface` state plus the driver handle and the
      monitor task of the TCP and serial variants. */
  class Transport {
    const kind: TransportKind
    var status: ConnectionStatus
    var packetCallback: Option<Callback>
    var connectionCallback: Option<Callback>
    var deviceInfo: map<string, Value>
    var handle: Option<Session>
    var monitor: TaskState
    /** Every call of the connection callback, in order. */
    var notified: seq<Notification>
    /** Every call of the packet callback, in order. */
    var forwarded: seq<PacketDelivery>
    /** Every call made on the meshtastic driver, in order. */
    var driverCalls: seq<DriverCall>

    /** The notification log never repeats a status and, once the callback
        has been called, ends with the current status. */
    ghost predicate Valid()
      reads this
    {
      && NoRepeats(notified)
      && EndsWith(notified, status)
      && (notified != [] ==> connectionCallback.Some?)
    }

    /** The state `disconnect` leaves behind on a transport whose monitor was
        `monitor0`, whose driver handle was `handle0` and whose driver calls
        were `calls0`: DISCONNECTED with no handle, a running monitor
        cancelled, and an open driver closed exactly once. */
    predicate ReleasedFrom(monitor0: TaskState, handle0: Option<Session>, calls0: seq<DriverCall>)
      reads this
    {
      && status == Disconnected
      && handle == None
      && monitor == (if monitor0 == Running then Cancelled else monitor0)
      && driverCalls == calls0 + (if handle0.Some? then [Close(handle0.value)] else [])
    }

    /** The state a successful `connect` over `session` leaves behind:
        CONNECTED with the driver handle, the device information read from
        that driver, and a running monitor task. */
    predicate OpenedWith(session: Session)
      reads this
    {
      && status == Connected
      && handle == Some(session)
      && deviceInfo == DeviceInfoFor(kind, session.driver)
      && monitor == Running
    }

    /** A new transport is disconnected, has no callbacks, no device
        information, no driver handle and no monitor task. */
    constructor (kind: TransportKind)
      ensures Valid()
      ensures this.kind == kind
      ensures status == Disconnected && packetCallback == None && connectionCallback == None
      ensures deviceInfo == map[] && handle == None && monitor == NoTask
      ensures notified == [] && forwarded == [] && driverCalls == []
    {
      this.kind := kind;
      status := Disconnected;
      packetCallback := None;
      connectionCallback := None;
      deviceInfo := map[];
      handle := None;
      monitor := NoTask;
      notified := [];
      forwarded := [];
      driverCalls := [];
    }

    /** `set_packet_callback`: replaces the previous callback. */
    method SetPacketCallback(cb: Callback)
      modifies this`packetCallback
      ensures packetCallback == Some(cb)
    {
      packetCallback := Some(cb);
    }

    /** `set_connection_callback`: replaces the previous callback. */
    method SetConnectionCallback(cb: Callback)
      requires Valid()
      modifies this`connectionCallback
      ensures Valid()
      ensures connectionCallback == Some(cb)
    {
      connectionCallback := Some(cb);
    }

    /** `_update_status`: a change of status is recorded and reported to the
        callback once; a raising callback is swallowed after the status has
        changed. Updating to the current status does nothing. */
    method UpdateStatus(next: ConnectionStatus)
      requires Valid()
      modifies this`status, this`notified
      ensures Valid()
      ensures status == next
      ensures notified == old(notified) + Notify(old(status), connectionCallback, next)
    {
      if status != next {
        status := next;
        if connectionCallback.Some? {
          // the callback is called even when it raises; the exception only reaches the log
          notified := notified + [Notification(connectionCallback.value, next)];
        }
      }
    }

    /** `_handle_packet`: forwards the packet to the callback if one is set. */
    method HandlePacket(packet: map<string, Value>)
      modifies this`forwarded
      ensures forwarded == old(forwarded) + (if packetCallback.Some? then [PacketDelivery(packetCallback.value, packet)] else [])
    {
      if packetCallback.Some? {
        forwarded := forwarded + [PacketDelivery(packetCallback.value, packet)];
      }
    }

    /** `_on_receive`, with the sender read as `from`: a packet whose
        attributes can be read is translated and handed on; one whose reads
        raise is logged and dropped. */
    method OnReceive(packet: Value)
      modifies this`forwarded
      ensures ReadPacket(packet, "from").None? ==> forwarded == old(forwarded)
      ensures ReadPacket(packet, "from").Some? ==>
        forwarded == old(forwarded) +
          (if packetCallback.Some? then [PacketDelivery(packetCallback.value, PacketDict(ReadPacket(packet, "from").value))] else [])
    {
      var read := ReadPacket(packet, "from");
      if read.Some? {
        HandlePacket(PacketDict(read.value));
      }
    }

    /** `connect`: CONNECTING, then CONNECTED with a fresh driver handle,
        device information and a running monitor, or FAILED when the driver
        raises or returns nothing. Never raises. */
    method Connect(open: OpenOutcome) returns (ok: bool)
      requires Valid()
      modifies this
      ensures Valid()
      ensures ok <==> open.Opened?
      ensures status == if ok then Connected else Failed
      ensures notified == old(notified) + Notify(old(status), connectionCallback, Connecting) + Notify(Connecting, connectionCallback, status)
      ensures driverCalls == old(driverCalls) + [Open(kind)]
      ensures ok ==> handle == Some(open.session) && deviceInfo == DeviceInfoFor(kind, open.session.driver) && monitor == Running
      ensures open.OpenedNothing? ==> handle == None
      ensures open.OpenRaised? ==> handle == old(handle)
      ensures !ok ==> deviceInfo == old(deviceInfo) && monitor == old(monitor)
      ensures packetCallback == old(packetCallback) && connectionCallback == old(connectionCallback)
      ensures forwarded == old(forwarded)
    {
      UpdateStatus(Connecting);
      driverCalls := driverCalls + [Open(kind)];
      match open {
        case OpenRaised(_) =>
          ok := false;
        case OpenedNothing =>
          handle := None;
          ok := false;
        case Opened(session) =>
          handle := Some(session);
          deviceInfo := DeviceInfoFor(kind, session.driver);
          monitor := Running;
          ok := true;
      }
      UpdateStatus(if ok then Connected else Failed);
    }

    /** `disconnect`: cancels the monitor, closes the driver (whether or not
        closing raises) and always ends DISCONNECTED with no handle. */
    method Disconnect(closeRaises: bool)
      requires Valid()
      modifies this
      ensures Valid()
      ensures status == Disconnected && handle == None
      ensures monitor == if old(monitor) == Running then Cancelled else old(monitor)
      ensures driverCalls == old(driverCalls) + (if old(handle).Some? then [Close(old(handle).value)] else [])
      ensures notified == old(notified) + Notify(old(status), connectionCallback, Disconnected)
      ensures deviceInfo == old(deviceInfo)
      ensures packetCallback == old(packetCallback) && connectionCallback == old(connectionCallback)
      ensures forwarded == old(forwarded)
    {
      if monitor == Running {
        monitor := Cancelled;
      }
      if handle.Some? {
        // a raising close is logged; the handle is released in `finally` either way
        driverCalls := driverCalls + [Close(handle.value)];
        handle := None;
      }
      UpdateStatus(Disconnected);
    }

    /** `send_message`: refuses without calling the driver unless there is a
        handle and the status is CONNECTED; a raising driver yields false. */
    method SendMessage(text: string, destination: Option<string>, sendRaises: bool) returns (ok: bool)
      modifies this`driverCalls
      ensures ok <==> handle.Some? && status == Connected && !sendRaises
      ensures driverCalls == old(driverCalls) +
        (if handle.Some? && status == Connected then [SendText(handle.value, text, destination)] else [])
    {
      if handle.None? || status != Connected {
        return false;
      }
      driverCalls := driverCalls + [SendText(handle.value, text, destination)];
      ok := !sendRaises;
    }

    /** `get_node_info`, with the result described by `NodeInfoFor`. */
    method GetNodeInfo() returns (info: map<string, Value>)
      ensures info == NodeInfoFor(handle)
    {
      info := map[];
      if handle.None? {
        return;
      }
      var nodes := GetAttr(handle.value.driver, "nodes", Dict(map[]));
      if !nodes.Dict? {
        // iterating `.items()` of anything but a dictionary raises; the handler returns {}
        return;
      }
      info := CollectNodes(nodes.entries);
    }

    /** `_monitor_connection`, where `wakeups` is the number of five-second
        sleeps that finish before the monitor is cancelled: while CONNECTED it
        checks the handle after each sleep, and a missing handle turns the
        status to FAILED and ends the loop. */
    method MonitorConnection(wakeups: nat)
      requires Valid()
      modifies this`status, this`notified, this`monitor
      ensures Valid()
      ensures status == if old(status) == Connected && wakeups > 0 && handle.None? then Failed else old(status)
      ensures notified == old(notified) + Notify(old(status), connectionCallback, status)
      ensures monitor == Done
    {
      var slept := 0;
      while status == Connected && slept < wakeups
        invariant Valid()
        invariant slept <= wakeups
        invariant status == old(status) && notified == old(notified)
        invariant slept > 0 ==> handle.Some?
        decreases wakeups - slept
      {
        slept := slept + 1;
        if handle.None? {
          UpdateStatus(Failed);
          break;
        }
      }
      monitor := Done;
    }

    /** The serial variant's `connect` as written: it awaits the `None` that
        `_update_status(CONNECTING)` returns, which raises inside the `try`;
        the handler then awaits `_update_status(FAILED)`, which raises out of
        `connect`. The driver is never opened. */
    method SerialConnectAsWritten(open: OpenOutcome) returns (r: Completion<bool>)
      requires Valid()
      requires kind.SerialPort?
      modifies this
      ensures Valid()
      ensures r == Raised(AwaitNoneError)
      ensures status == Failed
      ensures notified == old(notified) + Notify(old(status), connectionCallback, Connecting) + Notify(Connecting, connectionCallback, Failed)
      ensures driverCalls == old(driverCalls) && handle == old(handle)
      ensures deviceInfo == old(deviceInfo) && monitor == old(monitor)
    {
      UpdateStatus(Connecting);
      // `await None` raises here, before the driver is constructed
      UpdateStatus(Failed);
      r := Raised(AwaitNoneError);
    }

    /** The serial variant's `disconnect` as written: the same steps as
        `Disconnect`, then the final `await` of `None` raises. */
    method SerialDisconnectAsWritten(closeRaises: bool) returns (r: Completion<()>)
      requires Valid()
      requires kind.SerialPort?
      modifies this
      ensures Valid()
      ensures r == Raised(AwaitNoneError)
      ensures status == Disconnected && handle == None
      ensures driverCalls == old(driverCalls) + (if old(handle).Some? then [Close(old(handle).value)] else [])
      ensures notified == old(notified) + Notify(old(status), connectionCallback, Disconnected)
    {
      Disconnect(closeRaises);
      r := Raised(AwaitNoneError);
    }
  }

  /** A serial transport whose driver would open still fails to connect as
      written: `connect` raises, ends FAILED and never calls the driver. */
  method SerialConnectAsWrittenNeverOpens(path: string, session: Session)
    returns (r: Completion<bool>, final: ConnectionStatus, calls: seq<DriverCall>)
    ensures r == Raised(AwaitNoneError)
    ensures final == Failed
    ensures calls == []
  {
    var t := new Transport(SerialPort(path));
    r := t.SerialConnectAsWritten(Opened(session));
    final, calls := t.status, t.driverCalls;
  }

  /** The corrected serial `connect` on the same input opens the driver and
      ends CONNECTED. */
  method SerialConnectOpens(path: string, session: Session)
    returns (ok: bool, final: ConnectionStatus, calls: seq<DriverCall>)
    ensures ok
    ensures final == Connected
    ensures calls == [Open(SerialPort(path))]
  {
    var t := new Transport(SerialPort(path));
    ok := t.Connect(Opened(session));
    final, calls := t.status, t.driverCalls;
  }
}

=== FILE: values.dfy ===
/**
 * Values shared by the whole model: an option type, the dynamically typed
 * values that travel inside event payloads, packet dictionaries and driver
 * objects, callback identities, task states and the few string operations
 * the core relies on (substring search, prefix test, ASCII lower-casing and
 * decimal rendering of a natural number).
 */
module Values {

  datatype Option<+T> = None | Some(value: T)

  /** A Python value as the core sees it: dictionaries built by the core and
      driver objects that are only ever read through attribute access. */
  datatype Value =
    | Null
    | Bool(b: bool)
    | Int(i: int)
    | Str(s: string)
    | Dict(entries: map<string, Value>)
    | Obj(attrs: map<string, Value>)

  /** `getattr(v, name, default)`: an attribute of a driver object, or the
      default when the object has no such attribute (a dictionary has none). */
  function GetAttr(v: Value, name: string, default: Value): Value
  {
    if v.Obj? && name in v.attrs then v.attrs[name] else default
  }

  /** `d.get(key, default)` on a dictionary. */
  function DictGet(d: map<string, Value>, key: string, default: Value): Value
  {
    if key in d then d[key] else default
  }

  /** The identity of a callable registered somewhere in the core, with a
      flag telling whether calling it raises an exception. */
  datatype Callback = Callback(id: nat, raises: bool)

  /** The life cycle of an asyncio task as far as the core observes it. */
  datatype TaskState = NoTask | Running | Cancelled | Done

  /** Index of the first occurrence of `x` in `s` (`list.index`), or `|s|`. */
  function FirstIndex<T(==)>(s: seq<T>, x: T): (k: nat)
    ensures k <= |s|
    ensures k < |s| <==> x in s
    ensures k < |s| ==> s[k] == x
    ensures forall j :: 0 <= j < k ==> s[j] != x
  {
    if s == [] then 0
    else if s[0] == x then 0
    else 1 + FirstIndex(s[1..], x)
  }

  /** `list.remove(x)` without the exception: drops the first occurrence of
      `x` and leaves a list without `x` as it is. */
  function RemoveFirst<T(==)>(s: seq<T>, x: T): (r: seq<T>)
    ensures x !in s ==> r == s
  {
    if s == [] then []
    else if s[0] == x then s[1..]
    else [s[0]] + RemoveFirst(s[1..], x)
  }

  /** What is removed is exactly the element at the first index of `x`. */
  lemma {:induction false} RemoveFirstSplits<T>(s: seq<T>, x: T)
    requires x in s
    ensures RemoveFirst(s, x) == s[..FirstIndex(s, x)] + s[FirstIndex(s, x) + 1..]
  {
    if s[0] != x {
      RemoveFirstSplits(s[1..], x);
      DropAfterHead(s, FirstIndex(s[1..], x));
    }
  }

  /** Dropping position `k + 1` of `s` is dropping position `k` of its tail. */
  lemma DropAfterHead<T>(s: seq<T>, k: nat)
    requires k + 1 < |s|
    ensures s[..k + 1] + s[k + 2..] == [s[0]] + (s[1..][..k] + s[1..][k + 1..])
  {
    assert s[..k + 1] == [s[0]] + s[1..][..k];
  }

  /** Removing an element that is present takes exactly one copy of it out. */
  lemma {:induction false} RemoveFirstMultiset<T>(s: seq<T>, x: T)
    requires x in s
    ensures multiset(RemoveFirst(s, x)) == multiset(s) - multiset{x}
  {
    assert s == [s[0]] + s[1..];
    if s[0] != x {
      RemoveFirstMultiset(s[1..], x);
    }
  }

  // ---------------------------------------------------------------------
  // Strings

  /** `sub in s` as Python evaluates it on strings. */
  function Contains(s: string, sub: string): bool
    decreases |s|
  {
    if |sub| > |s| then false
    else if s[..|sub|] == sub then true
    else Contains(s[1..], sub)
  }

  ghost predicate OccursAt(s: string, sub: string, i: int)
  {
    0 <= i && i + |sub| <= |s| && s[i..i + |sub|] == sub
  }

  /** Declarative meaning of substring containment. */
  ghost predicate Occurs(s: string, sub: string)
  {
    exists i :: OccursAt(s, sub, i)
  }

  lemma {:induction false} ContainsOccurs(s: string, sub: string)
    ensures Contains(s, sub) <==> Occurs(s, sub)
    decreases |s|
  {
    if |sub| > |s| {
      assert !Occurs(s, sub);
    } else if s[..|sub|] == sub {
      assert OccursAt(s, sub, 0);
    } else {
      ContainsOccurs(s[1..], sub);
      if Occurs(s[1..], sub) {
        var j :| OccursAt(s[1..], sub, j);
        OccursAtTail(s, sub, j + 1);
      }
      if Occurs(s, sub) {
        var i :| OccursAt(s, sub, i);
        assert i != 0;
        OccursAtTail(s, sub, i);
      }
    }
  }

  /** An occurrence at a positive position is an occurrence one earlier in the tail. */
  lemma OccursAtTail(s: string, sub: string, i: int)
    requires 0 < i && 1 <= |s|
    ensures OccursAt(s, sub, i) <==> OccursAt(s[1..], sub, i - 1)
  {
    if i + |sub| <= |s| {
      assert s[1..][i - 1..i - 1 + |sub|] == s[i..i + |sub|];
    }
  }

  /** `s.startswith(prefix)`. */
  predicate StartsWith(s: string, prefix: string)
  {
    |prefix| <= |s| && s[..|prefix|] == prefix
  }

  /** `str.lower()` restricted to the ASCII letters. */
  function LowerChar(c: char): char
  {
    if 'A' <= c <= 'Z' then (c as int + 32) as char else c
  }

  function Lower(s: string): (r: string)
    ensures |r| == |s|
    ensures forall i :: 0 <= i < |s| ==> r[i] == LowerChar(s[i])
  {
    if s == [] then [] else [LowerChar(s[0])] + Lower(s[1..])
  }

  predicate IsDigitChar(c: char)
  {
    '0' <= c <= '9'
  }

  function DigitChar(d: nat): (c: char)
    requires d < 10
    ensures IsDigitChar(c)
  {
    (48 + d) as char
  }

  function DigitValue(c: char): (d: nat)
    requires IsDigitChar(c)
    ensures d < 10 && DigitChar(d) == c
  {
    c as int - 48
  }

  /** `str(n)` / `f"{n}"` for a natural number. */
  function DecimalString(n: nat): (r: string)
    ensures 1 <= |r|
    ensures n < 10 <==> |r| == 1
    ensures forall k :: 0 <= k < |r| ==> IsDigitChar(r[k])
    decreases n
  {
    if n < 10 then [DigitChar(n)] else DecimalString(n / 10) + [DigitChar(n % 10)]
  }

  /** Distinct numbers are rendered as distinct strings. */
  lemma {:induction false} DecimalStringInjective(a: nat, b: nat)
    requires DecimalString(a) == DecimalString(b)
    ensures a == b
    decreases a
  {
    var s := DecimalString(a);
    if a < 10 {
      assert s[0] == DigitChar(a) && DigitChar(b) == s[0];
      assert b < 10;
    } else {
      assert b >= 10;
      var pa, pb := DecimalString(a / 10), DecimalString(b / 10);
      assert s == pa + [DigitChar(a % 10)];
      assert s == pb + [DigitChar(b % 10)];
      assert DigitChar(a % 10) == s[|s| - 1] == DigitChar(b % 10);
      assert pa == s[..|s| - 1] == pb;
      DecimalStringInjective(a / 10, b / 10);
    }
  }

  /** `str(i)` for any integer. */
  function IntString(i: int): (r: string)
    ensures 1 <= |r|
    ensures i < 0 <==> r[0] == '-'
  {
    if i < 0 then "-" + DecimalString(-i) else DecimalString(i)
  }

  /** Distinct integers are rendered as distinct strings. */
  lemma IntStringInjective(a: int, b: int)
    requires IntString(a) == IntString(b)
    ensures a == b
  {
    if a < 0 {
      assert IntString(a)[1..] == DecimalString(-a);
      assert IntString(b)[1..] == DecimalString(-b);
      DecimalStringInjective(-a, -b);
    } else {
      DecimalStringInjective(a, b);
    }
  }
}
